=== FILE: README.md ===
# TEI letter renderer — a Dafny model

This project models the TEI-to-display transformer of a TEI letter preview app:
`renderParsedXml`, `renderNodeList`, `renderNode`, `extractTitle` and
`extractLetterContent` in `src/utils/xmlRenderer.jsx`. The transformer takes
the root element of a parsed TEI letter and builds a render tree. It does
this in three steps:

- It finds the title under `teiHeader > fileDesc > titleStmt`.
- It finds the letter body: the `writingSession` division under `text > body`, or that body itself.
- It walks both recursively, dispatching on the lower-cased tag name and collecting footnotes in one mutable list.

The model is functional. Its parts:

- `Xml.XmlNode` is the DOM input: text nodes, elements and all other node types.
- `Doc.DocNode` is the render tree. It keeps what each React element means, not its markup: paragraph, block kind, entity colour class and tooltip, inline style, quotation, footnote marker, page break, line break, resolved choice, fragment, or `null`.
- The footnote list (`Doc.Footnotes`) is passed into every call and returned, extended, with each result (`Render.Rendered`).
- `Select` models `querySelector`: a search in document order over the tree, with the ancestor chain that the `>` combinator needs.
- `Tags` holds the tag `switch` and the attribute rules for `rs`, `hi`, `foreign` and `pb`.
- `Render` holds the walk itself. `RenderProps` holds the properties of the walk.
- `Extract` holds the title and content lookup and the top-level function.
- `Examples` works small documents through the walk.

Notable behaviour of the code, which the model keeps:

- **Children first, for every element.** Line 77 renders an element's children against the outer footnote list before the `switch` runs. So notes inside `lb`, `pb` and `choice` register an entry even when none of their content is shown.
- **Nested notes.** A note inside a note registers before its parent, so numbering is post-order (`FootnotesPostOrder`). The marker that appears inside the parent's footnote text comes from a second, throw-away render against an empty list. Its number can therefore point at an unrelated footnote (`Examples.NestedNotes`). A design that keeps nested notes out of the outer list would differ here. The model follows the code.
- **Notes in `choice`.** `choice` searches all its descendants, not just its children, for `expan`, then for `abbr`. It renders the chosen element's content a second time with the outer list, so a note inside it registers twice (`Examples.NoteInExpansion`).
- **No division fallback.** The content is the first `div[type='writingSession']` anywhere below the body, or else the body. No other division is ever used.
- **Absent versus empty title.** A missing title element means no title section. An empty one gives an empty title. The model keeps the two apart with `Option`.
- **Case rules.** The tag `switch` lower-cases the tag. The `querySelector` searches compare tag and attribute names exactly, because the document comes from an `application/xml` parse.
- **Plain entities.** `persName`, `placeName`, `work`, `organization` and `date` render exactly like an `rs` without a type: same class, no tooltip. Their date attributes are not read.

## Model

| member | source | states |
|---|---|---|
| Xml.Lower | src/utils/xmlRenderer.jsx:69 | lower-casing maps each character in place: an upper-case ASCII letter to its lower-case letter, every other character to itself; no upper-case ASCII letter remains |
| Xml.LowerIdempotent | src/utils/xmlRenderer.jsx:84 | lower-casing an already lower-cased tag or type changes nothing |
| Xml.OrElse | src/utils/xmlRenderer.jsx:115 | `a || b` on string-or-undefined values yields one of its operands, the left one exactly when it is a non-empty string, and is a non-empty string exactly when either operand is |
| Select.FirstMatch | src/utils/xmlRenderer.jsx:188 | the querySelector search returns only elements the selector matches, and none larger than the searched children |
| Select.FirstMatchFound | src/utils/xmlRenderer.jsx:197-199 | the search finds something exactly when some node of the searched tree matches, and what it finds is a node of that tree |
| Select.FirstInIsFirst | src/utils/xmlRenderer.jsx:188 | a first-match search over a list finds something exactly when some entry matches, and what it finds has no match before it |
| Select.FirstMatchIsFirstInPreorder | src/utils/xmlRenderer.jsx:197-199 | the recursive search returns exactly the first match of the document-order (pre-order) listing of the tree |
| Select.FindTag | src/utils/xmlRenderer.jsx:145-149 | `querySelector('expan')` / `('abbr')` returns an element with exactly that tag |
| Select.FindTagIsFirstDescendant | src/utils/xmlRenderer.jsx:145-149 | the single-tag search finds nothing exactly when no descendant carries the tag, and otherwise the first descendant in document order that does |
| Select.FindTagHead | src/utils/xmlRenderer.jsx:145 | when the first child carries the tag, the search returns that child |
| Doc.Splice | src/utils/xmlRenderer.jsx:176-179 | dissolving fragments leaves no pass-through node at the top level of the list |
| Doc.SpliceConcat | src/utils/xmlRenderer.jsx:178-179 | dissolving fragments distributes over concatenation of sibling lists |
| Doc.SpliceIdentity | src/utils/xmlRenderer.jsx:176-179 | a list with no fragment at any depth is its own dissolution: every node other than a fragment is kept, unchanged and in order |
| Doc.SpliceFragment | src/utils/xmlRenderer.jsx:176-179 | a fragment among siblings is replaced, in its place, by its own children dissolved in turn |
| Tags.RoleOf | src/utils/xmlRenderer.jsx:97-179 | a lower-cased tag falls to the default case exactly when it is none of the 25 switch labels; the block, plain-entity and editorial groups are exactly their labels; only `note` selects the note case and only `choice` the choice case |
| Tags.RoleOfTable | src/utils/xmlRenderer.jsx:97-179 | each of the 25 labels selects the case the label table lists for it, and every other tag the default case |
| Tags.Rendition | src/utils/xmlRenderer.jsx:130 | the `hi` rendition is `rend` when it is non-empty, otherwise `rendition` (possibly absent) |
| Tags.HiStyle | src/utils/xmlRenderer.jsx:129-136 | the `hi` style is the table entry for the rendition (u/underline/uu, i/italic, b/bold, aq), compared case-sensitively, else none |
| Tags.RsSubtype | src/utils/xmlRenderer.jsx:115 | the `rs` type is the first non-empty of `type`, `t`, `subtype`, and empty exactly when none is |
| Tags.RsKind | src/utils/xmlRenderer.jsx:82-95 | the `rs` colour is the table entry of the lower-cased type (person, place, work, bible, letter, default), and the default for an empty or unlisted type |
| Tags.ForeignLang | src/utils/xmlRenderer.jsx:138 | the `foreign` language is `xml:lang` when non-empty, otherwise `unknown` |
| Tags.PageBreakOf | src/utils/xmlRenderer.jsx:167-172 | a `pb` yields nothing exactly when `n` is `"1"`, otherwise a page break carrying `n` |
| Render.RenderList | src/utils/xmlRenderer.jsx:53-57 | one output per input node; a text node yields its text verbatim, a node that is neither text nor element yields nothing; the footnote list only grows |
| Render.RenderNode | src/utils/xmlRenderer.jsx:59-68 | rendering one node never removes or changes footnote entries already present |
| Render.RenderElement | src/utils/xmlRenderer.jsx:69-180 | rendering an element only appends to the footnote list |
| Render.RenderChoice | src/utils/xmlRenderer.jsx:144-153 | a `choice` always renders as a reading and only appends to the footnote list its children left |
| RenderProps.RenderListConcat | src/utils/xmlRenderer.jsx:53-57 | rendering a concatenation renders the first part, then the second against the list the first part left |
| RenderProps.RenderListAt | src/utils/xmlRenderer.jsx:54-56 | output `i` is child `i` rendered against the list its predecessors produced, in the children's order |
| RenderProps.DispatchIgnoresCase | src/utils/xmlRenderer.jsx:69 | two tags that lower-case alike render alike |
| RenderProps.NoteStep | src/utils/xmlRenderer.jsx:140-143 | a note pushes exactly one entry after its children's entries; the entry is its children rendered against a fresh empty list; the marker is the list length after the push |
| RenderProps.NoteElement | src/utils/xmlRenderer.jsx:140-143 | a `note` renders as a marker numbered by the list's length after the push, and appends its children rendered against a fresh list |
| RenderProps.WrapperCases | src/utils/xmlRenderer.jsx:97-166 | every labelled case but `note`, `choice`, `pb` and `lb` wraps exactly the rendered children and leaves the footnote list as the children left it |
| RenderProps.BlockElements | src/utils/xmlRenderer.jsx:99-110 | `p` renders as a paragraph and `opener`, `closer`, `dateline`, `salute`, `signed` each as its own block, around the rendered children |
| RenderProps.EntityElements | src/utils/xmlRenderer.jsx:113-124 | `rs` renders as an entity coloured by its type with the type as tooltip exactly when non-empty; the five other entity tags as the default entity without tooltip |
| RenderProps.InlineElements | src/utils/xmlRenderer.jsx:127-138 | `q` renders as a quotation, `hi` with the style of its rendition, `foreign` with its language |
| RenderProps.EditorialElements | src/utils/xmlRenderer.jsx:154-165 | `add`, `del`, `sic`, `supplied`, `formula`, `unclear` each render as the span of their own style |
| RenderProps.PageAndLineBreaks | src/utils/xmlRenderer.jsx:167-174 | `pb n="1"` yields nothing, any other `pb` a page break with `n`, `lb` a bare line break; notes inside either are still registered |
| RenderProps.ChoiceResolution | src/utils/xmlRenderer.jsx:144-153 | choice yields the content of the first `expan` in document order if any, else of the first `abbr`, else all children; `expan` wins whenever present |
| RenderProps.NoteCountExact | src/utils/xmlRenderer.jsx:77 | rendering a node pushes exactly the number of entries counted off the tree (notes at any depth, plus the chosen `expan`/`abbr` notes a second time) |
| RenderProps.NoteCountElementExact | src/utils/xmlRenderer.jsx:140-153 | the same count for the element case |
| RenderProps.NoteCountListExact | src/utils/xmlRenderer.jsx:53-57 | the same count for a list of nodes |
| RenderProps.OnlyLengthMatters | src/utils/xmlRenderer.jsx:141-142 | what a node renders to and what it appends depend on the footnote list only through its length |
| RenderProps.OnlyLengthMattersElement | src/utils/xmlRenderer.jsx:140-153 | the same for the element case |
| RenderProps.OnlyLengthMattersList | src/utils/xmlRenderer.jsx:53-57 | the same for a list of nodes |
| RenderProps.UnknownElementAlone | src/utils/xmlRenderer.jsx:176-179 | an element with an unknown tag renders as one fragment holding its rendered children, with the footnote list its children left |
| RenderProps.UnknownTagTransparent | src/utils/xmlRenderer.jsx:176-179 | an element with an unknown tag renders, once fragments are dissolved, exactly as its children in its place, with the same footnotes |
| RenderProps.ElementNotes | src/utils/xmlRenderer.jsx:77 | outside `choice`, only `note` pushes an entry of its own; every other element leaves the list as its children left it |
| RenderProps.FootnotesPostOrder | src/utils/xmlRenderer.jsx:140-142 | without `choice`, a pass appends the contents of all notes, nested ones included, in post-order |
| RenderProps.FootnotesPostOrderList | src/utils/xmlRenderer.jsx:53-57 | the same for a list of nodes |
| RenderProps.NoNotesNoPushes | src/utils/xmlRenderer.jsx:77 | a subtree without `note` and `choice` leaves the footnote list unchanged |
| RenderProps.FootnotesInDocumentOrder | src/utils/xmlRenderer.jsx:141-142 | without `choice` and nested notes, footnote `i` is the content of the `i`-th note in document order |
| Extract.ExtractTitle | src/utils/xmlRenderer.jsx:185-193 | the extracted title is a `title` element |
| Extract.TitleIsFirstInDocumentOrder | src/utils/xmlRenderer.jsx:188 | the title is the first element in document order matching `teiHeader > fileDesc > titleStmt > title`, and absent exactly when none matches |
| Extract.TitlePathMeaning | src/utils/xmlRenderer.jsx:188 | the title selector matches a `title` whose three nearest ancestors are `teiHeader`, `fileDesc`, `titleStmt` |
| Extract.FindBody | src/utils/xmlRenderer.jsx:197 | the body found is a `body` element |
| Extract.ExtractLetterContent | src/utils/xmlRenderer.jsx:195-205 | there is content exactly when there is a `text > body`, and it is a `div` or a `body` element |
| Extract.LetterContentFallback | src/utils/xmlRenderer.jsx:197-200 | the body is the first `text > body` in document order, and there is none exactly when nothing matches; the content is the first `div[type='writingSession']` below that body, else the body itself |
| Extract.RenderParsedXml | src/utils/xmlRenderer.jsx:4-33 | the result is the error exactly when the root is missing or its lower-cased tag is not `tei`; title and content are present exactly when found |
| Extract.TitleNotesComeFirst | src/utils/xmlRenderer.jsx:9-31 | the title is rendered first: the footnotes begin with the title's entries, and their number is the title's and the content's counts together |
| Extract.SharedFootnoteList | src/utils/xmlRenderer.jsx:9-31 | the title shown is the found title's children rendered against an empty list; the content shown, and the footnote entries after the title's, are those of the content's children rendered against any list as long as the title's, so the content's markers continue the title's numbering |
| Extract.SectionsShareList | src/utils/xmlRenderer.jsx:18-31 | the same for the page built from a title's and a content's children |
| Extract.SectionFootnotes | src/utils/xmlRenderer.jsx:18-44 | without `choice`, the footnote list is the title's note contents and then the content's, each in post-order |
| Examples.ExpansionWins | src/utils/xmlRenderer.jsx:144-148 | for any texts `a` and `e`, `<choice><abbr>a</abbr><expan>e</expan></choice>` renders as the expansion `e` |
| Examples.NestedNotes | src/utils/xmlRenderer.jsx:140-143 | for any texts, a note nested in the second of two notes becomes footnote 2, the outer note footnote 3, and the marker inside footnote 3 reads 1 |
| Examples.NoteInExpansion | src/utils/xmlRenderer.jsx:144-147 | for any texts, a note in the chosen `expan` is registered twice and the shown marker is 2 |
| Examples.FirstPageBreakHidden | src/utils/xmlRenderer.jsx:167-172 | `<pb n="1"/>` renders nothing and `<pb n="2"/>` a page break for page 2 |

## Left out

- Markup: React elements, Tailwind class strings, `key` props, `<sup>`/`<br>` markup and tooltip texts are not modelled. Each becomes the meaning it encodes, as an enum or an optional string.
- Logging and exceptions: the `console.error` calls and the `try/catch` blocks in the two extractors are left out. A search over an immutable tree cannot throw.
- Parser: `src/utils/xmlParser.js` wraps the browser's `DOMParser`, whose behaviour is not visible. The model starts from the element tree the parser returns, and parse errors are not modelled.
- Application: `src/App.jsx` (state, `setTimeout`, loading flags), `src/components/FileUploader.jsx` (reading the file), and `src/components/Preview.jsx` and `src/components/ClearButton.jsx` (pure UI) are not part of this model.
- Input shapes: only the DOM tree shape is modelled. No other parser output shape and no depth limit exist in the code.
- Tags.RsKind: only the six table keys and the default are modelled. In the source, a lower-cased type naming an `Object.prototype` property, such as `constructor`, would pick up that property instead of a class.
- Xml.Lower: only ASCII letters are lower-cased. JavaScript's full Unicode mapping also maps, for example, the Kelvin sign to `k`. So a tag or type using such a character could select a case that the model does not select.
- Namespace prefixes: an element has one tag string, used both by the `switch` and by the searches. In the source, `tagName` includes a prefix, but CSS type selectors match the local name.
- Extract.RenderParsedXml: requires that a present root is an element. The source would throw on a non-element root, and the parser only ever returns the document element.
- `pb` with a number: the source also tests `attrs.n === 1`. Attribute values are always strings, so that test never holds and is not modelled.

=== FILE: doc.dfy ===
/** The render tree the renderer produces, with the React markup replaced by
    what it means: which wrapper an element became, which style class or
    tooltip it carries, and which footnote number a marker shows. */
module Doc {
  import opened Wrappers

  /** The five letter-structure blocks that become a styled `div`. */
  datatype BlockKind = Opener | Closer | Dateline | Salute | Signed

  /** The colour class of an entity highlight: one per known `rs` type, and
      the default one that `persName`, `placeName`, `work`, `organization`,
      `date` and every other `rs` share. */
  datatype EntityKind = Person | Place | Work | Bible | Letter | DefaultEntity

  /** The inline styles: the four `hi` renditions, an unstyled `hi`, a
      `foreign` span with its language tooltip, and the six editorial spans. */
  datatype Style =
    | Underline | Italic | Bold | Monospace | Unstyled
    | Foreign(lang: string)
    | Addition | Deletion | Sic | Supplied | Formula | Unclear

  /** How a `choice` was resolved. */
  datatype Reading = Expanded | Abbreviated | Fallback

  datatype DocNode =
    | Text(text: string)
    | Paragraph(children: seq<DocNode>)
    | Block(block: BlockKind, children: seq<DocNode>)
    | Entity(entity: EntityKind, subtype: Option<string>, children: seq<DocNode>)
    | Formatted(style: Style, children: seq<DocNode>)
    | Quoted(children: seq<DocNode>)
    | FootnoteRef(index: nat)
    | PageBreak(page: Option<string>)
    | LineBreak
    | Choice(reading: Reading, children: seq<DocNode>)
    | Passthrough(children: seq<DocNode>)
    | Nothing

  /** The footnote list: one rendered content per registered note, the entry
      at position `i` shown with number `i + 1`. */
  type Footnotes = seq<seq<DocNode>>

  /** The node with every `Passthrough` below it replaced by its children,
      which is what a React fragment amounts to on screen. */
  function SpliceNode(d: DocNode): DocNode
  {
    match d
    case Paragraph(cs) => Paragraph(Splice(cs))
    case Block(k, cs) => Block(k, Splice(cs))
    case Entity(k, t, cs) => Entity(k, t, Splice(cs))
    case Formatted(s, cs) => Formatted(s, Splice(cs))
    case Quoted(cs) => Quoted(Splice(cs))
    case Choice(m, cs) => Choice(m, Splice(cs))
    case Passthrough(cs) => Passthrough(Splice(cs))
    case _ => d
  }

  /** A list with every top-level `Passthrough` dissolved into its parent;
      `SpliceNode` does the same inside each remaining node. */
  function Splice(ds: seq<DocNode>): (r: seq<DocNode>)
    ensures forall i :: 0 <= i < |r| ==> !r[i].Passthrough?
  {
    if |ds| == 0 then []
    else if ds[0].Passthrough? then Splice(ds[0].children) + Splice(ds[1..])
    else [SpliceNode(ds[0])] + Splice(ds[1..])
  }

  /** No `Passthrough` anywhere in the node or below it. */
  predicate NoFragments(d: DocNode)
  {
    match d
    case Paragraph(cs) => NoFragmentsList(cs)
    case Block(_, cs) => NoFragmentsList(cs)
    case Entity(_, _, cs) => NoFragmentsList(cs)
    case Formatted(_, cs) => NoFragmentsList(cs)
    case Quoted(cs) => NoFragmentsList(cs)
    case Choice(_, cs) => NoFragmentsList(cs)
    case Passthrough(_) => false
    case _ => true
  }

  predicate NoFragmentsList(ds: seq<DocNode>)
  {
    forall i :: 0 <= i < |ds| ==> NoFragments(ds[i])
  }

  /** Dissolving fragments keeps every other node, in order and unchanged:
      a list without fragments at any depth is its own dissolution. */
  lemma {:induction false} SpliceIdentity(ds: seq<DocNode>)
    requires NoFragmentsList(ds)
    ensures Splice(ds) == ds
    decreases ds
  {
    if |ds| > 0 {
      var d := ds[0];
      assert NoFragments(d);
      match d {
        case Paragraph(cs) => SpliceIdentity(cs);
        case Block(_, cs) => SpliceIdentity(cs);
        case Entity(_, _, cs) => SpliceIdentity(cs);
        case Formatted(_, cs) => SpliceIdentity(cs);
        case Quoted(cs) => SpliceIdentity(cs);
        case Choice(_, cs) => SpliceIdentity(cs);
        case _ =>
      }
      assert SpliceNode(d) == d;
      SpliceIdentity(ds[1..]);
      assert ds == [d] + ds[1..];
    }
  }

  /** A fragment is replaced by its children, dissolved in turn, in its
      place among its siblings. */
  lemma SpliceFragment(pre: seq<DocNode>, cs: seq<DocNode>, post: seq<DocNode>)
    ensures Splice(pre + [Passthrough(cs)] + post) == Splice(pre) + Splice(cs) + Splice(post)
  {
    SpliceConcat(pre + [Passthrough(cs)], post);
    SpliceConcat(pre, [Passthrough(cs)]);
    assert [Passthrough(cs)][1..] == [];
  }

  lemma {:induction false} SpliceConcat(a: seq<DocNode>, b: seq<DocNode>)
    ensures Splice(a + b) == Splice(a) + Splice(b)
    decreases |a|
  {
    if |a| > 0 {
      assert (a + b)[0] == a[0];
      assert (a + b)[1..] == a[1..] + b;
      SpliceConcat(a[1..], b);
    } else {
      assert a + b == b;
    }
  }
}

=== FILE: examples.dfy ===
/** Small documents worked through the renderer, one per behaviour that is
    easy to get wrong when reading the source. */
module Examples {
  import opened Wrappers
  import opened Xml
  import opened Select
  import opened Doc
  import opened Tags
  import opened Render
  import opened RenderProps

  function El(tag: string, cs: seq<XmlNode>): XmlNode
  {
    Element(tag, map[], cs)
  }

  function Abbr(a: string): XmlNode { El("abbr", [TextNode(a)]) }
  function Expan(e: string): XmlNode { El("expan", [TextNode(e)]) }

  /** The search for `expan` passes over the `abbr` and its text. */
  lemma ExpanFound(a: string, e: string)
    ensures FindTag([Abbr(a), Expan(e)], "expan") == Some(Expan(e))
  {
    var sel := TagSelector("expan");
    var cs := [Abbr(a), Expan(e)];
    assert !Matches(sel, Located(Abbr(a), []));
    assert FirstMatch([TextNode(a)], ["abbr"], sel) == None by {
      assert [TextNode(a)][1..] == [];
    }
    assert cs[1..] == [Expan(e)];
    assert [] + ["abbr"] == ["abbr"];
    assert FirstMatch(cs, [], sel) == FirstMatch(cs[1..], [], sel);
    FindTagHead(cs[1..], "expan");
  }

  /** An element holding only text contains no `note` and no `choice`. */
  lemma PlainLeaf(tag: string, s: string)
    requires Lower(tag) != "note" && Lower(tag) != "choice"
    ensures NoteFree(El(tag, [TextNode(s)])) && ChoiceFree(El(tag, [TextNode(s)]))
  {
    assert [TextNode(s)][1..] == [];
  }

  /** Neither child is or holds a `note` or a `choice`. */
  lemma ChildrenPlain(a: string, e: string)
    ensures NoteFreeList([Abbr(a), Expan(e)]) && ChoiceFreeList([Abbr(a), Expan(e)])
  {
    var cs := [Abbr(a), Expan(e)];
    assert NoteFreeList(cs[1..]) && ChoiceFreeList(cs[1..]) by {
      LowerOfLower("expan");
      PlainLeaf("expan", e);
      assert cs[1..] == [Expan(e)];
      assert cs[1..][1..] == [];
    }
    assert NoteFree(cs[0]) && ChoiceFree(cs[0]) by {
      LowerOfLower("abbr");
      PlainLeaf("abbr", a);
    }
  }

  /** So rendering them registers nothing. */
  lemma ChildrenRegisterNothing(a: string, e: string)
    ensures RenderList([Abbr(a), Expan(e)], []).notes == []
  {
    ChildrenPlain(a, e);
    NoNotesNoPushes([Abbr(a), Expan(e)], []);
  }

  /** An expansion wins over an abbreviation that comes before it, and the
      abbreviation's text is not shown. */
  lemma ExpansionWins(a: string, e: string)
    ensures RenderNode(El("choice", [Abbr(a), Expan(e)]), []).value == Choice(Expanded, [Text(e)])
  {
    var cs := [Abbr(a), Expan(e)];
    var kids := RenderList(cs, []);
    assert RenderNode(El("choice", cs), []) == RenderChoice(cs, kids) by {
      ChoiceIsChoice();
    }
    assert kids.notes == [] by {
      ChildrenRegisterNothing(a, e);
    }
    assert RenderChoice(cs, kids).value == Choice(Expanded, RenderList([TextNode(e)], []).value) by {
      ExpanFound(a, e);
    }
    SingleText(e, []);
  }

  lemma ChoiceIsChoice()
    ensures RoleOf(Lower("choice")) == ChoiceRole
  {
    LowerOfLower("choice");
  }

  // ---- nested notes

  lemma PushTwo<T>(p: seq<T>, x: T, y: T)
    ensures p + [x] + [y] == p + [x, y]
  {
  }

  /** A list one longer than `p` that starts with `p` and ends with `x`. */
  lemma OnePushed<T>(s: seq<T>, p: seq<T>, x: T)
    requires |s| == |p| + 1 && s[..|p|] == p && s[|p|] == x
    ensures s == p + [x]
  {
    assert s == s[..|p|] + [s[|p|]];
  }

  lemma NoteTagIsLower()
    ensures Lower("note") == "note"
  {
    LowerOfLower("note");
  }

  lemma SingleText(s: string, notes: Footnotes)
    ensures RenderList([TextNode(s)], notes) == Rendered([Text(s)], notes)
  {
    assert [TextNode(s)][1..] == [];
    assert RenderNode(TextNode(s), notes) == Rendered(Text(s), notes);
    assert RenderList([], notes) == Rendered([], notes);
    assert [Text(s)] + [] == [Text(s)];
  }

  /** A note holding only text pushes that text and shows the new length. */
  lemma NoteOfText(s: string, notes: Footnotes)
    ensures RenderNode(El("note", [TextNode(s)]), notes) == Rendered(FootnoteRef(|notes| + 1), notes + [[Text(s)]])
  {
    var cs := [TextNode(s)];
    assert RenderList(cs, notes) == Rendered([Text(s)], notes) by {
      SingleText(s, notes);
    }
    assert RenderList(cs, []) == Rendered([Text(s)], []) by {
      SingleText(s, []);
    }
    assert RenderNode(El("note", cs), notes) == RenderElement("note", map[], cs, notes);
    NoteTagIsLower();
    NoteElement("note", map[], cs, notes);
  }

  /** A two-node list renders the first node, then the second. */
  lemma TwoNodes(m: XmlNode, n: XmlNode, notes: Footnotes)
    ensures var a := RenderNode(m, notes);
            var b := RenderNode(n, a.notes);
            RenderList([m, n], notes) == Rendered([a.value, b.value], b.notes)
  {
    var a := RenderNode(m, notes);
    var b := RenderNode(n, a.notes);
    assert [m, n] == [m] + [n];
    RenderListConcat([m], [n], notes);
    SingleNode(m, notes);
    SingleNode(n, a.notes);
    assert [a.value] + [b.value] == [a.value, b.value];
  }

  /** The children of the outer note in `NestedNotes`: text, then a note. */
  lemma TextThenNote(s: string, t: string, notes: Footnotes)
    ensures RenderList([TextNode(s), El("note", [TextNode(t)])], notes)
            == Rendered([Text(s), FootnoteRef(|notes| + 1)], notes + [[Text(t)]])
  {
    TwoNodes(TextNode(s), El("note", [TextNode(t)]), notes);
    assert RenderNode(TextNode(s), notes) == Rendered(Text(s), notes);
    NoteOfText(t, notes);
  }

  /** The outer note's element case, rendered after earlier notes. */
  lemma OuterNoteElement(a: string, b: string, notes: Footnotes)
    ensures var r := RenderElement("note", map[], [TextNode(a), El("note", [TextNode(b)])], notes);
            && |r.notes| == |notes| + 2
            && r.notes[..|notes| + 1] == notes + [[Text(b)]]
            && r.notes[|notes| + 1] == [Text(a), FootnoteRef(1)]
            && r.value == FootnoteRef(|notes| + 2)
  {
    NoteTagIsLower();
    TextThenNote(a, b, notes);
    TextThenNote(a, b, []);
    NoteStep("note", map[], [TextNode(a), El("note", [TextNode(b)])], notes);
  }

  /** The outer note in `NestedNotes`, rendered after earlier notes. */
  lemma OuterNote(a: string, b: string, notes: Footnotes)
    ensures RenderNode(El("note", [TextNode(a), El("note", [TextNode(b)])]), notes)
            == Rendered(FootnoteRef(|notes| + 2), notes + [[Text(b)], [Text(a), FootnoteRef(1)]])
  {
    var cs := [TextNode(a), El("note", [TextNode(b)])];
    var r := RenderNode(El("note", cs), notes);
    assert r.notes[..|notes| + 1] == notes + [[Text(b)]] && r.notes[|notes| + 1] == [Text(a), FootnoteRef(1)]
           && |r.notes| == |notes| + 2 && r.value == FootnoteRef(|notes| + 2) by {
      OuterNoteElement(a, b, notes);
    }
    OnePushed(r.notes, notes + [[Text(b)]], [Text(a), FootnoteRef(1)]);
    PushTwo(notes, [Text(b)], [Text(a), FootnoteRef(1)]);
  }

  /** A note inside a note is registered before it, so the outer note gets
      number 3. The marker inside the outer note's content is numbered
      against the fresh list that content was rendered with: it reads 1,
      which is the number of the first, unrelated note. */
  lemma NestedNotes(x: string, a: string, b: string)
    ensures RenderList([El("note", [TextNode(x)]),
                        El("note", [TextNode(a), El("note", [TextNode(b)])])], [])
            == Rendered([FootnoteRef(1), FootnoteRef(3)],
                        [[Text(x)], [Text(b)], [Text(a), FootnoteRef(1)]])
  {
    TwoNodes(El("note", [TextNode(x)]), El("note", [TextNode(a), El("note", [TextNode(b)])]), []);
    FirstNote(x);
    OuterNoteAfterOne(x, a, b);
  }

  lemma FirstNote(x: string)
    ensures RenderNode(El("note", [TextNode(x)]), []) == Rendered(FootnoteRef(1), [[Text(x)]])
  {
    NoteOfText(x, []);
    assert [] + [[Text(x)]] == [[Text(x)]];
  }

  lemma OuterNoteAfterOne(x: string, a: string, b: string)
    ensures RenderNode(El("note", [TextNode(a), El("note", [TextNode(b)])]), [[Text(x)]])
            == Rendered(FootnoteRef(3), [[Text(x)], [Text(b)], [Text(a), FootnoteRef(1)]])
  {
    OuterNote(a, b, [[Text(x)]]);
    assert [[Text(x)]] + [[Text(b)], [Text(a), FootnoteRef(1)]]
           == [[Text(x)], [Text(b)], [Text(a), FootnoteRef(1)]];
  }

  // ---- a note in an expansion

  function NotedExpan(d: string, n: string): XmlNode
  {
    El("expan", [TextNode(d), El("note", [TextNode(n)])])
  }

  /** The `expan` element has no case of its own: rendered among the
      `choice`'s children it passes its content through and registers its
      note. */
  lemma ExpanPassesThrough(d: string, n: string)
    ensures RenderList([NotedExpan(d, n)], []).notes == [[Text(n)]]
  {
    var x := NotedExpan(d, n);
    assert RenderList([x], []).notes == RenderNode(x, []).notes by {
      SingleNode(x, []);
    }
    assert RenderNode(x, []).notes == RenderList(x.children, []).notes by {
      LowerOfLower("expan");
      ElementNotes("expan", map[], x.children, []);
    }
    assert RenderList(x.children, []).notes == [[Text(n)]] by {
      TextThenNote(d, n, []);
    }
  }

  /** A note inside the chosen expansion is registered twice: once while all
      children of the `choice` are rendered, and once more while the
      expansion's content is; the marker shown is the second number. */
  lemma NoteInExpansion(d: string, n: string)
    ensures RenderNode(El("choice", [NotedExpan(d, n)]), [])
            == Rendered(Choice(Expanded, [Text(d), FootnoteRef(2)]), [[Text(n)], [Text(n)]])
  {
    var cs := [NotedExpan(d, n)];
    var kids := RenderList(cs, []);
    assert RenderNode(El("choice", cs), []) == RenderChoice(cs, kids) by {
      ChoiceIsChoice();
    }
    assert kids.notes == [[Text(n)]] by {
      ExpanPassesThrough(d, n);
    }
    var again := RenderList([TextNode(d), El("note", [TextNode(n)])], kids.notes);
    assert again == Rendered([Text(d), FootnoteRef(2)], [[Text(n)], [Text(n)]]) by {
      TextThenNote(d, n, [[Text(n)]]);
      PushTwo([], [Text(n)], [Text(n)]);
    }
    assert RenderChoice(cs, kids) == Rendered(Choice(Expanded, again.value), again.notes) by {
      FindTagHead(cs, "expan");
    }
  }

  // ---- page breaks

  /** Page 1 is not shown; page 2 is. */
  lemma FirstPageBreakHidden()
    ensures RenderNode(Element("pb", map["n" := "1"], []), []).value == Nothing
    ensures RenderNode(Element("pb", map["n" := "2"], []), []).value == PageBreak(Some("2"))
  {
    LowerOfLower("pb");
    assert RoleOf("pb") == PbRole;
  }
}

=== FILE: extract.dfy ===
/** `renderParsedXml` with `extractTitle` and `extractLetterContent`: finding
    the title and the letter body in a TEI document and rendering both with
    one shared footnote list. */
module Extract {
  import opened Wrappers
  import opened Xml
  import opened Select
  import opened Doc
  import opened Render
  import opened RenderProps

  /** `teiHeader > fileDesc > titleStmt > title` */
  const TitlePath := Selector(["teiHeader", "fileDesc", "titleStmt", "title"], None)

  /** `text > body` */
  const BodyPath := Selector(["text", "body"], None)

  /** `div[type='writingSession']` */
  const WritingSession := Selector(["div"], Some(("type", "writingSession")))

  /** Everything below the document element in document order. The document
      element has no element above it, so the ancestors of its children are
      just its own tag. */
  function Below(tei: XmlNode): seq<Located>
    requires tei.Element?
  {
    Preorder(tei.children, [tei.tag])
  }

  /** `extractTitle`: the first `title` below the document element whose
      parent, grandparent and great-grandparent are `titleStmt`, `fileDesc`
      and `teiHeader`. */
  function ExtractTitle(tei: XmlNode): (r: Option<XmlNode>)
    requires tei.Element?
    ensures r.Some? ==> r.value.Element? && r.value.tag == "title"
  {
    match FirstMatch(tei.children, [tei.tag], TitlePath)
    case Some(loc) => Some(loc.node)
    case None => None
  }

  /** The `querySelector("text > body")` step of `extractLetterContent`. */
  function FindBody(tei: XmlNode): (r: Option<Located>)
    requires tei.Element?
    ensures r.Some? ==> r.value.node.Element? && r.value.node.tag == "body"
  {
    FirstMatch(tei.children, [tei.tag], BodyPath)
  }

  /** `extractLetterContent`: the first `div` with `type="writingSession"`
      below the first `body` whose parent is `text`, or that `body` itself
      when it has no such `div`; nothing when there is no such `body`. */
  function ExtractLetterContent(tei: XmlNode): (r: Option<XmlNode>)
    requires tei.Element?
    ensures r.Some? <==> FindBody(tei).Some?
    ensures r.Some? ==> r.value.Element? && r.value.tag in {"div", "body"}
  {
    match FindBody(tei)
    case None => None
    case Some(body) =>
      match FirstMatch(body.node.children, body.ancestors + [body.node.tag], WritingSession)
      case Some(ws) => Some(ws.node)
      case None => Some(body.node)
  }

  /** The one failure `renderParsedXml` reports. */
  datatype Error = NotATeiDocument

  /** What `renderParsedXml` shows: the title (absent when no title element
      was found), the letter content (absent when no body was found), and
      the footnotes in numbering order. */
  datatype Rendering = Rendering(title: Option<seq<DocNode>>, content: Option<seq<DocNode>>, footnotes: Footnotes)

  /** `renderParsedXml`. Anything but a document element whose lower-cased
      tag is `tei` is refused; otherwise the title and the content found
      below it are rendered as `RenderSections` does. */
  function RenderParsedXml(root: Option<XmlNode>): (r: Result<Rendering, Error>)
    requires root.Some? ==> root.value.Element?
    ensures r.Failure? <==> root.None? || Lower(root.value.tag) != "tei"
    ensures r.Success? ==> (r.value.title.Some? <==> ExtractTitle(root.value).Some?)
    ensures r.Success? ==> (r.value.content.Some? <==> FindBody(root.value).Some?)
  {
    if root.None? || Lower(root.value.tag) != "tei" then Failure(NotATeiDocument)
    else
      var tei := root.value;
      Success(RenderSections(ChildrenOf(ExtractTitle(tei)), ChildrenOf(ExtractLetterContent(tei))))
  }

  /** The children of a found element, or nothing when none was found. */
  function ChildrenOf(n: Option<XmlNode>): (r: Option<seq<XmlNode>>)
    requires n.Some? ==> n.value.Element?
    ensures r.Some? <==> n.Some?
  {
    if n.Some? then Some(n.value.children) else None
  }

  /** The page `renderParsedXml` builds from the title's and the content's
      children: the title's children are rendered first and the content's
      after them, against one footnote list that starts empty. */
  function RenderSections(title: Option<seq<XmlNode>>, content: Option<seq<XmlNode>>): (r: Rendering)
    ensures r.title.Some? <==> title.Some?
    ensures r.content.Some? <==> content.Some?
  {
    var t := if title.Some? then RenderList(title.value, []) else Rendered([], []);
    var b := if content.Some? then RenderList(content.value, t.notes) else Rendered([], t.notes);
    Rendering(
      if title.Some? then Some(t.value) else None,
      if content.Some? then Some(b.value) else None,
      b.notes)
  }

  // ---- properties

  /** The title is the first element in document order that the title
      selector matches, and there is none exactly when no element matches. */
  lemma TitleIsFirstInDocumentOrder(tei: XmlNode)
    requires tei.Element?
    ensures var below := Below(tei);
            && (ExtractTitle(tei).Some? <==> exists k :: 0 <= k < |below| && Matches(TitlePath, below[k]))
            && (ExtractTitle(tei).Some? ==>
                  exists k :: 0 <= k < |below| && below[k].node == ExtractTitle(tei).value
                              && Matches(TitlePath, below[k])
                              && forall j :: 0 <= j < k ==> !Matches(TitlePath, below[j]))
  {
    FirstMatchIsFirstInPreorder(tei.children, [tei.tag], TitlePath);
    FirstInIsFirst(Below(tei), TitlePath);
  }

  /** What the title selector matches: a `title` element whose three nearest
      ancestors are, from the outside in, `teiHeader`, `fileDesc` and
      `titleStmt`. */
  lemma TitlePathMeaning(loc: Located)
    ensures Matches(TitlePath, loc) <==>
              && loc.node.Element? && loc.node.tag == "title"
              && |loc.ancestors| >= 3
              && loc.ancestors[|loc.ancestors| - 3..] == ["teiHeader", "fileDesc", "titleStmt"]
  {
  }

  /** The content is the first writing-session `div` in document order below
      the body, or the body itself when there is none; the body is the first
      `body` in document order whose parent is `text`. */
  lemma LetterContentFallback(tei: XmlNode)
    requires tei.Element?
    ensures var below := Below(tei);
            FindBody(tei).None? <==> forall k :: 0 <= k < |below| ==> !Matches(BodyPath, below[k])
    ensures var below := Below(tei);
            FindBody(tei).Some? ==>
              exists k :: 0 <= k < |below| && below[k] == FindBody(tei).value
                          && Matches(BodyPath, below[k])
                          && forall j :: 0 <= j < k ==> !Matches(BodyPath, below[j])
    ensures FindBody(tei).Some? ==>
              var body := FindBody(tei).value;
              var inBody := Preorder(body.node.children, body.ancestors + [body.node.tag]);
              && body.node.Element?
              && ((forall k :: 0 <= k < |inBody| ==> !Matches(WritingSession, inBody[k]))
                    ==> ExtractLetterContent(tei) == Some(body.node))
              && (forall k :: 0 <= k < |inBody| && Matches(WritingSession, inBody[k])
                    && (forall j :: 0 <= j < k ==> !Matches(WritingSession, inBody[j]))
                    ==> ExtractLetterContent(tei) == Some(inBody[k].node))
  {
    FirstMatchIsFirstInPreorder(tei.children, [tei.tag], BodyPath);
    FirstInIsFirst(Below(tei), BodyPath);
    if FindBody(tei).Some? {
      var body := FindBody(tei).value;
      var inBody := Preorder(body.node.children, body.ancestors + [body.node.tag]);
      FirstMatchIsFirstInPreorder(body.node.children, body.ancestors + [body.node.tag], WritingSession);
      FirstInIsFirst(inBody, WritingSession);
      forall k | 0 <= k < |inBody| && Matches(WritingSession, inBody[k])
                 && (forall j :: 0 <= j < k ==> !Matches(WritingSession, inBody[j]))
        ensures ExtractLetterContent(tei) == Some(inBody[k].node)
      {
        FirstMatchUnique(inBody, WritingSession, k);
      }
    }
  }

  /** A match with no match before it is the one `FirstIn` returns. */
  lemma {:induction false} FirstMatchUnique(s: seq<Located>, sel: Selector, k: nat)
    requires k < |s| && Matches(sel, s[k])
    requires forall j :: 0 <= j < k ==> !Matches(sel, s[j])
    ensures FirstIn(s, sel) == Some(s[k])
    decreases k
  {
    if k > 0 {
      FirstMatchUnique(s[1..], sel, k - 1);
    }
  }

  /** The title is rendered first: the footnote list begins with exactly the
      entries the title pushed, and holds as many entries as the title and
      the content register together. */
  lemma TitleNotesComeFirst(root: Option<XmlNode>)
    requires root.Some? && root.value.Element? && Lower(root.value.tag) == "tei"
    ensures var r := RenderParsedXml(root);
            var title := ExtractTitle(root.value);
            var content := ExtractLetterContent(root.value);
            var titleNotes := if title.Some? then RenderList(title.value.children, []).notes else [];
            && r.Success?
            && |titleNotes| == (if title.Some? then NoteCountList(title.value.children) else 0)
            && titleNotes <= r.value.footnotes
            && |r.value.footnotes| == |titleNotes|
                 + (if content.Some? then NoteCountList(content.value.children) else 0)
  {
    var tei := root.value;
    var title := ExtractTitle(tei);
    var content := ExtractLetterContent(tei);
    var t := if title.Some? then RenderList(title.value.children, []) else Rendered([], []);
    if title.Some? {
      NoteCountListExact(title.value.children, []);
    }
    if content.Some? {
      NoteCountListExact(content.value.children, t.notes);
    }
  }

  /** The title is its children rendered against an empty list, and the
      content is its children rendered against the list the title left: its
      output, and the entries it appends, are those of a render against any
      list as long as the title's, so its footnote markers continue after
      the title's. */
  lemma SectionsShareList(title: Option<seq<XmlNode>>, content: Option<seq<XmlNode>>, pre: Footnotes)
    ensures var r := RenderSections(title, content);
            var titleNotes := if title.Some? then RenderList(title.value, []).notes else [];
            && r.title == (if title.Some? then Some(RenderList(title.value, []).value) else None)
            && (|pre| == |titleNotes| ==>
                  && r.content == (if content.Some? then Some(RenderList(content.value, pre).value) else None)
                  && r.footnotes[|titleNotes|..]
                       == (if content.Some? then RenderList(content.value, pre).notes[|pre|..] else []))
  {
    var t := if title.Some? then RenderList(title.value, []) else Rendered([], []);
    var b := if content.Some? then RenderList(content.value, t.notes) else Rendered([], t.notes);
    var r := RenderSections(title, content);
    assert r.title == (if title.Some? then Some(t.value) else None);
    assert r.content == (if content.Some? then Some(b.value) else None) && r.footnotes == b.notes;
    if |pre| == |t.notes| {
      ContentAfterTitle(content, t.notes, pre);
    } else {
      ContentAfterTitle(content, t.notes, t.notes);
    }
  }

  /** The content rendered after a title depends on the title's entries
      only through their number. */
  lemma ContentAfterTitle(content: Option<seq<XmlNode>>, notes: Footnotes, pre: Footnotes)
    requires |pre| == |notes|
    ensures var b := if content.Some? then RenderList(content.value, notes) else Rendered([], notes);
            && notes <= b.notes
            && (content.Some? ==> b.value == RenderList(content.value, pre).value)
            && b.notes[|notes|..] == (if content.Some? then RenderList(content.value, pre).notes[|pre|..] else [])
  {
    if content.Some? {
      OnlyLengthMattersList(content.value, notes, pre);
    }
  }

  /** Without `choice`, the footnote list holds the contents of the title's
      notes and then of the content's notes, each in post-order. */
  lemma SectionFootnotes(title: Option<seq<XmlNode>>, content: Option<seq<XmlNode>>)
    ensures var tc := if title.Some? then title.value else [];
            var cc := if content.Some? then content.value else [];
            ChoiceFreeList(tc) && ChoiceFreeList(cc) ==>
              RenderSections(title, content).footnotes == NoteBodies(PostNotesList(tc) + PostNotesList(cc))
  {
    var tc := if title.Some? then title.value else [];
    var cc := if content.Some? then content.value else [];
    if ChoiceFreeList(tc) && ChoiceFreeList(cc) {
      assert RenderList([], []) == Rendered([], []);
      FootnotesPostOrderList(tc, []);
      var t := RenderList(tc, []);
      assert RenderList([], t.notes) == Rendered([], t.notes);
      FootnotesPostOrderList(cc, t.notes);
      NoteBodiesConcat(PostNotesList(tc), PostNotesList(cc));
    }
  }

  /** For a whole letter: the title shown is the found title's children
      rendered against an empty list, and the content shown is the found
      content's children rendered after them, its footnote entries following
      the title's. */
  lemma SharedFootnoteList(root: Option<XmlNode>, pre: Footnotes)
    requires root.Some? && root.value.Element? && Lower(root.value.tag) == "tei"
    ensures var r := RenderParsedXml(root);
            var title := ExtractTitle(root.value);
            var content := ExtractLetterContent(root.value);
            var titleNotes := if title.Some? then RenderList(title.value.children, []).notes else [];
            && r.Success?
            && r.value.title == (if title.Some? then Some(RenderList(title.value.children, []).value) else None)
            && (|pre| == |titleNotes| ==>
                  && r.value.content
                       == (if content.Some? then Some(RenderList(content.value.children, pre).value) else None)
                  && r.value.footnotes[|titleNotes|..]
                       == (if content.Some? then RenderList(content.value.children, pre).notes[|pre|..] else []))
  {
    var tei := root.value;
    var title := ChildrenOf(ExtractTitle(tei));
    var content := ChildrenOf(ExtractLetterContent(tei));
    assert RenderParsedXml(root) == Success(RenderSections(title, content));
    SectionsShareList(title, content, pre);
  }
}

=== FILE: render.dfy ===
/** `renderNodeList` and `renderNode`: the recursive walk from the DOM tree to
    the render tree. The footnote list the source mutates is threaded through
    as an input and returned, extended, with each result. */
module Render {
  import opened Wrappers
  import opened Xml
  import opened Select
  import opened Doc
  import opened Tags

  /** A rendering result together with the footnote list after producing it. */
  datatype Rendered<T> = Rendered(value: T, notes: Footnotes)

  /** `renderNodeList`: every node of `ns` rendered in order, each against the
      footnote list the nodes before it left behind; one output per node. */
  function RenderList(ns: seq<XmlNode>, notes: Footnotes): (r: Rendered<seq<DocNode>>)
    ensures |r.value| == |ns|
    ensures notes <= r.notes
    ensures forall i :: 0 <= i < |ns| && ns[i].TextNode? ==> r.value[i] == Text(ns[i].content)
    ensures forall i :: 0 <= i < |ns| && ns[i].OtherNode? ==> r.value[i] == Nothing
    decreases SizeList(ns), 1
  {
    if |ns| == 0 then Rendered([], notes)
    else
      var first := RenderNode(ns[0], notes);
      var rest := RenderList(ns[1..], first.notes);
      assert forall i :: 1 <= i < |ns| ==> ns[i] == ns[1..][i - 1];
      Rendered([first.value] + rest.value, rest.notes)
  }

  /** `renderNode`. A text node renders as its text and any node that is
      neither text nor element as nothing. The footnote list only ever grows. */
  function RenderNode(n: XmlNode, notes: Footnotes): (r: Rendered<DocNode>)
    ensures notes <= r.notes
    decreases Size(n), 0
  {
    match n
    case TextNode(s) => Rendered(Text(s), notes)
    case OtherNode => Rendered(Nothing, notes)
    case Element(tag, attrs, cs) => RenderElement(tag, attrs, cs, notes)
  }

  /** The element case of `renderNode`. All children are rendered first,
      against the current footnote list, whatever the tag; then the case of
      the `switch` that the lower-cased tag selects builds the result. */
  function RenderElement(tag: string, attrs: map<string, string>, cs: seq<XmlNode>, notes: Footnotes)
    : (r: Rendered<DocNode>)
    ensures notes <= r.notes
    decreases SizeList(cs), 3
  {
    var kids := RenderList(cs, notes);
    var role := RoleOf(Lower(tag));
    if role == NoteRole then
      // the note's own content is rendered again, against a fresh list
      // whose entries are dropped
      var content := RenderList(cs, []).value;
      Rendered(FootnoteRef(|kids.notes| + 1), kids.notes + [content])
    else if role == ChoiceRole then
      RenderChoice(cs, kids)
    else
      Rendered(Wrap(role, attrs, kids.value), kids.notes)
  }

  /** The `choice` case: the first `expan` below the element, else the first
      `abbr`, has its children rendered once more, against the list that
      rendering all children (`kids`) left; with neither, the children
      already rendered are kept. */
  function RenderChoice(cs: seq<XmlNode>, kids: Rendered<seq<DocNode>>): (r: Rendered<DocNode>)
    ensures kids.notes <= r.notes
    ensures r.value.Choice?
    decreases SizeList(cs), 2
  {
    var expan := FindTag(cs, "expan");
    if expan.Some? then
      var e := RenderList(expan.value.children, kids.notes);
      Rendered(Choice(Expanded, e.value), e.notes)
    else
      var abbr := FindTag(cs, "abbr");
      if abbr.Some? then
        var a := RenderList(abbr.value.children, kids.notes);
        Rendered(Choice(Abbreviated, a.value), a.notes)
      else
        Rendered(Choice(Fallback, kids.value), kids.notes)
  }

  /** The cases of the `switch` that wrap the rendered children, or drop
      them, and leave the footnote list alone. */
  function Wrap(role: Role, attrs: map<string, string>, children: seq<DocNode>): DocNode
    requires role != NoteRole && role != ChoiceRole
  {
    match role
    case ParagraphRole => Paragraph(children)
    case BlockRole(k) => Block(k, children)
    case RsRole =>
      var t := RsSubtype(attrs);
      Entity(RsKind(t), RsTooltip(t), children)
    case EntityRole => Entity(DefaultEntity, None, children)
    case QuoteRole => Quoted(children)
    case HiRole => Formatted(HiStyle(attrs), children)
    case ForeignRole => Formatted(Foreign(ForeignLang(attrs)), children)
    case StyleRole(s) => Formatted(s, children)
    case PbRole => PageBreakOf(attrs)
    case LbRole => LineBreak
    case Unknown => Passthrough(children)
  }
}

=== FILE: render_props.dfy ===
/** Properties of the walk: how `renderNodeList` threads the footnote list,
    what each special case of `renderNode` produces, and in what order notes
    are numbered. */
module RenderProps {
  import opened Wrappers
  import opened Xml
  import opened Select
  import opened Doc
  import opened Tags
  import opened Render

  // ---- renderNodeList

  /** Rendering a concatenation renders the first part, then the second part
      against the footnote list the first part left. */
  lemma {:induction false} RenderListConcat(a: seq<XmlNode>, b: seq<XmlNode>, notes: Footnotes)
    ensures var ra := RenderList(a, notes);
            var rb := RenderList(b, ra.notes);
            RenderList(a + b, notes) == Rendered(ra.value + rb.value, rb.notes)
    decreases |a|
  {
    if |a| == 0 {
      assert a + b == b;
      assert RenderList(a, notes) == Rendered([], notes);
      assert [] + RenderList(b, notes).value == RenderList(b, notes).value;
    } else {
      var first := RenderNode(a[0], notes);
      assert (a + b)[0] == a[0];
      assert (a + b)[1..] == a[1..] + b;
      RenderListConcat(a[1..], b, first.notes);
      var ra' := RenderList(a[1..], first.notes);
      var rb := RenderList(b, ra'.notes);
      assert RenderList(a + b, notes) == Rendered([first.value] + (ra'.value + rb.value), rb.notes) by {
        RenderListCons(a + b, notes);
      }
      assert [first.value] + (ra'.value + rb.value) == ([first.value] + ra'.value) + rb.value;
    }
  }

  /** One step of `renderNodeList` on a non-empty list. */
  lemma RenderListCons(ns: seq<XmlNode>, notes: Footnotes)
    requires |ns| > 0
    ensures var first := RenderNode(ns[0], notes);
            var rest := RenderList(ns[1..], first.notes);
            RenderList(ns, notes) == Rendered([first.value] + rest.value, rest.notes)
  {
  }

  /** Output `i` of `renderNodeList` is node `i` rendered against the
      footnote list that the nodes before it produced: one output per child,
      in the children's order. */
  lemma RenderListAt(ns: seq<XmlNode>, notes: Footnotes, i: nat)
    requires i < |ns|
    ensures RenderList(ns, notes).value[i] == RenderNode(ns[i], RenderList(ns[..i], notes).notes).value
  {
    var before := RenderList(ns[..i], notes);
    assert ns == ns[..i] + ns[i..];
    RenderListConcat(ns[..i], ns[i..], notes);
    assert ns[i..][0] == ns[i];
  }

  /** A one-node list renders as that node. */
  lemma SingleNode(n: XmlNode, notes: Footnotes)
    ensures RenderList([n], notes) == Rendered([RenderNode(n, notes).value], RenderNode(n, notes).notes)
  {
    assert [n][1..] == [];
    assert [n][0] == n;
    var first := RenderNode(n, notes);
    assert RenderList([], first.notes) == Rendered([], first.notes);
    assert [first.value] + [] == [first.value];
  }

  // ---- the cases of renderNode

  /** The tag is compared lower-cased: two spellings that lower-case alike
      render alike. */
  lemma DispatchIgnoresCase(t1: string, t2: string, attrs: map<string, string>, cs: seq<XmlNode>, notes: Footnotes)
    requires Lower(t1) == Lower(t2)
    ensures RenderNode(Element(t1, attrs, cs), notes) == RenderNode(Element(t2, attrs, cs), notes)
  {
  }

  /** A `note` pushes exactly one entry, after everything its children pushed
      when they were rendered against the outer list; the entry is the
      children rendered against a fresh, empty list, and the marker is the
      list's length after the push. */
  lemma NoteStep(tag: string, attrs: map<string, string>, cs: seq<XmlNode>, notes: Footnotes)
    requires Lower(tag) == "note"
    ensures var r := RenderElement(tag, attrs, cs, notes);
            var inner := RenderList(cs, notes).notes;
            && |r.notes| == |inner| + 1
            && r.notes[..|inner|] == inner
            && r.notes[|inner|] == RenderList(cs, []).value
            && r.value == FootnoteRef(|r.notes|)
            && |r.notes| == |notes| + NoteCountList(cs) + 1
  {
    NoteCountListExact(cs, notes);
    var inner := RenderList(cs, notes).notes;
    assert (inner + [RenderList(cs, []).value])[..|inner|] == inner;
  }

  /** The `note` case on its own: a marker numbered by the list's new
      length, and the children rendered against a fresh list appended. */
  lemma NoteElement(tag: string, attrs: map<string, string>, cs: seq<XmlNode>, notes: Footnotes)
    requires Lower(tag) == "note"
    ensures var after := RenderList(cs, notes).notes;
            RenderElement(tag, attrs, cs, notes)
            == Rendered(FootnoteRef(|after| + 1), after + [RenderList(cs, []).value])
  {
    assert RoleOf(Lower(tag)) == NoteRole;
  }

  /** A `pb` with `n` equal to `"1"` renders as nothing and any other `pb` as
      a page break carrying `n`; an `lb` is always a bare line break. Both
      still render their children first, so notes inside them are
      registered although nothing of the children is shown. */
  lemma PageAndLineBreaks(tag: string, attrs: map<string, string>, cs: seq<XmlNode>, notes: Footnotes)
    ensures var r := RenderElement(tag, attrs, cs, notes);
            Lower(tag) == "pb" ==>
              && (r.value == Nothing <==> "n" in attrs && attrs["n"] == "1")
              && (r.value != Nothing ==> r.value == PageBreak(Attr(attrs, "n")))
    ensures Lower(tag) == "lb" ==> RenderElement(tag, attrs, cs, notes).value == LineBreak
    ensures Lower(tag) in {"pb", "lb"} ==> RenderElement(tag, attrs, cs, notes).notes == RenderList(cs, notes).notes
  {
    var role := RoleOf(Lower(tag));
    if Lower(tag) == "pb" {
      assert role == PbRole;
    } else if Lower(tag) == "lb" {
      assert role == LbRole;
    }
  }

  /** Every case of the `switch` other than `note`, `choice`, `pb` and `lb`
      wraps the rendered children, unchanged and in order, in one node, and
      pushes nothing of its own. */
  lemma WrapperCases(tag: string, attrs: map<string, string>, cs: seq<XmlNode>, notes: Footnotes)
    requires Lower(tag) in KnownTags - {"note", "choice", "pb", "lb"}
    ensures var kids := RenderList(cs, notes);
            var r := RenderElement(tag, attrs, cs, notes);
            && r.notes == kids.notes
            && r.value.children == kids.value
  {
    var t := Lower(tag);
    if t in {"p", "opener", "closer", "dateline", "salute", "signed"} {
      BlockElements(tag, attrs, cs, notes);
    } else if t in {"rs", "persname", "placename", "work", "organization", "date"} {
      EntityElements(tag, attrs, cs, notes);
    } else if t in {"q", "hi", "foreign"} {
      InlineElements(tag, attrs, cs, notes);
    } else {
      EditorialElements(tag, attrs, cs, notes);
    }
  }

  /** Outside `note` and `choice`, an element is its wrapper around its
      rendered children. */
  lemma WrapStep(tag: string, attrs: map<string, string>, cs: seq<XmlNode>, notes: Footnotes)
    requires RoleOf(Lower(tag)) != NoteRole && RoleOf(Lower(tag)) != ChoiceRole
    ensures var kids := RenderList(cs, notes);
            RenderElement(tag, attrs, cs, notes) == Rendered(Wrap(RoleOf(Lower(tag)), attrs, kids.value), kids.notes)
  {
  }

  /** `p` becomes a paragraph and each letter-structure tag its own block. */
  lemma BlockElements(tag: string, attrs: map<string, string>, cs: seq<XmlNode>, notes: Footnotes)
    ensures var kids := RenderList(cs, notes);
            var r := RenderElement(tag, attrs, cs, notes);
            && (Lower(tag) == "p" ==> r == Rendered(Paragraph(kids.value), kids.notes))
            && (Lower(tag) == "opener" ==> r == Rendered(Block(Opener, kids.value), kids.notes))
            && (Lower(tag) == "closer" ==> r == Rendered(Block(Closer, kids.value), kids.notes))
            && (Lower(tag) == "dateline" ==> r == Rendered(Block(Dateline, kids.value), kids.notes))
            && (Lower(tag) == "salute" ==> r == Rendered(Block(Salute, kids.value), kids.notes))
            && (Lower(tag) == "signed" ==> r == Rendered(Block(Signed, kids.value), kids.notes))
  {
    var t := Lower(tag);
    if t == "p" {
      assert RoleOf(t) == ParagraphRole;
      WrapStep(tag, attrs, cs, notes);
    } else if t == "opener" {
      assert RoleOf(t) == BlockRole(Opener);
      WrapStep(tag, attrs, cs, notes);
    } else if t == "closer" {
      assert RoleOf(t) == BlockRole(Closer);
      WrapStep(tag, attrs, cs, notes);
    } else if t == "dateline" {
      assert RoleOf(t) == BlockRole(Dateline);
      WrapStep(tag, attrs, cs, notes);
    } else if t == "salute" {
      assert RoleOf(t) == BlockRole(Salute);
      WrapStep(tag, attrs, cs, notes);
    } else if t == "signed" {
      assert RoleOf(t) == BlockRole(Signed);
      WrapStep(tag, attrs, cs, notes);
    }
  }

  /** `rs` becomes an entity coloured by its type and carrying the type as
      tooltip when the type is non-empty; the other entity tags become the
      default-coloured entity without tooltip. */
  lemma EntityElements(tag: string, attrs: map<string, string>, cs: seq<XmlNode>, notes: Footnotes)
    ensures var kids := RenderList(cs, notes);
            var r := RenderElement(tag, attrs, cs, notes);
            var t := RsSubtype(attrs);
            Lower(tag) == "rs" ==>
              && r == Rendered(Entity(RsKind(t), RsTooltip(t), kids.value), kids.notes)
              && (r.value.subtype.Some? <==> t != "")
              && (r.value.subtype.Some? ==> r.value.subtype.value == t)
    ensures var kids := RenderList(cs, notes);
            Lower(tag) in {"persname", "placename", "work", "organization", "date"} ==>
              RenderElement(tag, attrs, cs, notes) == Rendered(Entity(DefaultEntity, None, kids.value), kids.notes)
  {
    var t := Lower(tag);
    if t == "rs" {
      assert RoleOf(t) == RsRole;
      WrapStep(tag, attrs, cs, notes);
    } else if t == "persname" {
      assert RoleOf(t) == EntityRole;
      WrapStep(tag, attrs, cs, notes);
    } else if t == "placename" {
      assert RoleOf(t) == EntityRole;
      WrapStep(tag, attrs, cs, notes);
    } else if t == "work" {
      assert RoleOf(t) == EntityRole;
      WrapStep(tag, attrs, cs, notes);
    } else if t == "organization" {
      assert RoleOf(t) == EntityRole;
      WrapStep(tag, attrs, cs, notes);
    } else if t == "date" {
      assert RoleOf(t) == EntityRole;
      WrapStep(tag, attrs, cs, notes);
    }
  }

  /** `q` becomes a quotation, `hi` the style its rendition selects, and
      `foreign` a span carrying its language. */
  lemma InlineElements(tag: string, attrs: map<string, string>, cs: seq<XmlNode>, notes: Footnotes)
    ensures var kids := RenderList(cs, notes);
            var r := RenderElement(tag, attrs, cs, notes);
            && (Lower(tag) == "q" ==> r == Rendered(Quoted(kids.value), kids.notes))
            && (Lower(tag) == "hi" ==> r == Rendered(Formatted(HiStyle(attrs), kids.value), kids.notes))
            && (Lower(tag) == "foreign" ==> r == Rendered(Formatted(Foreign(ForeignLang(attrs)), kids.value), kids.notes))
  {
    var t := Lower(tag);
    if t == "q" {
      assert RoleOf(t) == QuoteRole;
      WrapStep(tag, attrs, cs, notes);
    } else if t == "hi" {
      assert RoleOf(t) == HiRole;
      WrapStep(tag, attrs, cs, notes);
    } else if t == "foreign" {
      assert RoleOf(t) == ForeignRole;
      WrapStep(tag, attrs, cs, notes);
    }
  }

  /** Each editorial tag becomes the span of its own style. */
  lemma EditorialElements(tag: string, attrs: map<string, string>, cs: seq<XmlNode>, notes: Footnotes)
    ensures var kids := RenderList(cs, notes);
            var r := RenderElement(tag, attrs, cs, notes);
            && (Lower(tag) == "add" ==> r == Rendered(Formatted(Addition, kids.value), kids.notes))
            && (Lower(tag) == "del" ==> r == Rendered(Formatted(Deletion, kids.value), kids.notes))
            && (Lower(tag) == "sic" ==> r == Rendered(Formatted(Sic, kids.value), kids.notes))
            && (Lower(tag) == "supplied" ==> r == Rendered(Formatted(Supplied, kids.value), kids.notes))
            && (Lower(tag) == "formula" ==> r == Rendered(Formatted(Formula, kids.value), kids.notes))
            && (Lower(tag) == "unclear" ==> r == Rendered(Formatted(Unclear, kids.value), kids.notes))
  {
    var t := Lower(tag);
    if t == "add" {
      assert RoleOf(t) == StyleRole(Addition);
      WrapStep(tag, attrs, cs, notes);
    } else if t == "del" {
      assert RoleOf(t) == StyleRole(Deletion);
      WrapStep(tag, attrs, cs, notes);
    } else if t == "sic" {
      assert RoleOf(t) == StyleRole(Sic);
      WrapStep(tag, attrs, cs, notes);
    } else if t == "supplied" {
      assert RoleOf(t) == StyleRole(Supplied);
      WrapStep(tag, attrs, cs, notes);
    } else if t == "formula" {
      assert RoleOf(t) == StyleRole(Formula);
      WrapStep(tag, attrs, cs, notes);
    } else if t == "unclear" {
      assert RoleOf(t) == StyleRole(Unclear);
      WrapStep(tag, attrs, cs, notes);
    }
  }

  /** `choice` takes the first `expan` anywhere below it in document order,
      else the first `abbr`, else all its children; the chosen element's
      children are rendered a second time, against the list that rendering
      all children already extended. An `expan` wins whenever there is one. */
  lemma ChoiceResolution(tag: string, attrs: map<string, string>, cs: seq<XmlNode>, notes: Footnotes)
    requires Lower(tag) == "choice"
    ensures var r := RenderElement(tag, attrs, cs, notes);
            var after := RenderList(cs, notes).notes;
            var expan := FirstIn(Preorder(cs, []), TagSelector("expan"));
            var abbr := FirstIn(Preorder(cs, []), TagSelector("abbr"));
            && (expan.Some? ==>
                  expan.value.node.Element?
                  && r == Rendered(Choice(Expanded, RenderList(expan.value.node.children, after).value),
                                   RenderList(expan.value.node.children, after).notes))
            && (expan.None? && abbr.Some? ==>
                  abbr.value.node.Element?
                  && r == Rendered(Choice(Abbreviated, RenderList(abbr.value.node.children, after).value),
                                   RenderList(abbr.value.node.children, after).notes))
            && (expan.None? && abbr.None? ==>
                  r == Rendered(Choice(Fallback, RenderList(cs, notes).value), after))
    ensures var pre := Preorder(cs, []);
            var r := RenderElement(tag, attrs, cs, notes);
            && r.value.Choice?
            && ((exists k :: 0 <= k < |pre| && Matches(TagSelector("expan"), pre[k])) <==> r.value.reading == Expanded)
            && ((exists k :: 0 <= k < |pre| && Matches(TagSelector("abbr"), pre[k]))
                && !(exists k :: 0 <= k < |pre| && Matches(TagSelector("expan"), pre[k]))
                <==> r.value.reading == Abbreviated)
  {
    FirstMatchIsFirstInPreorder(cs, [], TagSelector("expan"));
    FirstMatchIsFirstInPreorder(cs, [], TagSelector("abbr"));
    FirstInIsFirst(Preorder(cs, []), TagSelector("expan"));
    FirstInIsFirst(Preorder(cs, []), TagSelector("abbr"));
  }

  // ---- how many notes a pass registers

  /** The number of entries rendering a node pushes, read off the tree: one
      per `note` at any depth, plus, for a `choice`, the notes of the chosen
      `expan` or `abbr` a second time. */
  function NoteCount(n: XmlNode): nat
    decreases Size(n), 0
  {
    match n
    case Element(tag, _, cs) => NoteCountElement(tag, cs)
    case _ => 0
  }

  function NoteCountElement(tag: string, cs: seq<XmlNode>): nat
    decreases SizeList(cs), 2
  {
    var role := RoleOf(Lower(tag));
    NoteCountList(cs) + (if role == NoteRole then 1 else if role == ChoiceRole then NoteCountChoice(cs) else 0)
  }

  /** What a `choice` pushes beyond its children: the notes of the chosen
      `expan` or `abbr` once more. */
  function NoteCountChoice(cs: seq<XmlNode>): nat
    decreases SizeList(cs), 1
  {
    match FindTag(cs, "expan")
    case Some(e) => NoteCountList(e.children)
    case None =>
      match FindTag(cs, "abbr")
      case Some(a) => NoteCountList(a.children)
      case None => 0
  }

  function NoteCountList(ns: seq<XmlNode>): nat
    decreases SizeList(ns), 1
  {
    if |ns| == 0 then 0 else NoteCount(ns[0]) + NoteCountList(ns[1..])
  }

  lemma {:induction false} NoteCountExact(n: XmlNode, notes: Footnotes)
    ensures |RenderNode(n, notes).notes| == |notes| + NoteCount(n)
    decreases Size(n), 0
  {
    if n.Element? {
      NoteCountElementExact(n.tag, n.attrs, n.children, notes);
    }
  }

  lemma {:induction false} NoteCountElementExact(tag: string, attrs: map<string, string>, cs: seq<XmlNode>, notes: Footnotes)
    ensures |RenderElement(tag, attrs, cs, notes).notes| == |notes| + NoteCountElement(tag, cs)
    decreases SizeList(cs), 2
  {
    NoteCountListExact(cs, notes);
    var kids := RenderList(cs, notes);
    var role := RoleOf(Lower(tag));
    if role == ChoiceRole {
      NoteCountChoiceExact(cs, kids);
      assert RenderElement(tag, attrs, cs, notes) == RenderChoice(cs, kids);
    } else if role != NoteRole {
      assert RenderElement(tag, attrs, cs, notes).notes == kids.notes;
    }
  }

  lemma {:induction false} NoteCountChoiceExact(cs: seq<XmlNode>, kids: Rendered<seq<DocNode>>)
    ensures |RenderChoice(cs, kids).notes| == |kids.notes| + NoteCountChoice(cs)
    decreases SizeList(cs), 1
  {
    var expan := FindTag(cs, "expan");
    if expan.Some? {
      NoteCountListExact(expan.value.children, kids.notes);
    } else {
      var abbr := FindTag(cs, "abbr");
      if abbr.Some? {
        NoteCountListExact(abbr.value.children, kids.notes);
      }
    }
  }

  /** Rendering a list pushes exactly as many entries as its nodes' counts
      add up to. */
  lemma {:induction false} NoteCountListExact(ns: seq<XmlNode>, notes: Footnotes)
    ensures |RenderList(ns, notes).notes| == |notes| + NoteCountList(ns)
    decreases SizeList(ns), 1
  {
    if |ns| > 0 {
      NoteCountExact(ns[0], notes);
      NoteCountListExact(ns[1..], RenderNode(ns[0], notes).notes);
    }
  }

  // ---- only the length of the footnote list matters

  /** What a node renders to, and what it appends, depends on the footnote
      list only through its length: earlier entries are never read. */
  lemma {:induction false} OnlyLengthMatters(n: XmlNode, a: Footnotes, b: Footnotes)
    requires |a| == |b|
    ensures RenderNode(n, a).value == RenderNode(n, b).value
    ensures RenderNode(n, a).notes[|a|..] == RenderNode(n, b).notes[|b|..]
    decreases Size(n), 0
  {
    if n.Element? {
      OnlyLengthMattersElement(n.tag, n.attrs, n.children, a, b);
    }
  }

  lemma {:induction false} OnlyLengthMattersElement(tag: string, attrs: map<string, string>, cs: seq<XmlNode>,
                                                    a: Footnotes, b: Footnotes)
    requires |a| == |b|
    ensures RenderElement(tag, attrs, cs, a).value == RenderElement(tag, attrs, cs, b).value
    ensures RenderElement(tag, attrs, cs, a).notes[|a|..] == RenderElement(tag, attrs, cs, b).notes[|b|..]
    decreases SizeList(cs), 2
  {
    OnlyLengthMattersList(cs, a, b);
    var ka := RenderList(cs, a).notes;
    var kb := RenderList(cs, b).notes;
    SuffixLength(ka, kb, a, b);
    var role := RoleOf(Lower(tag));
    if role == ChoiceRole {
      var expan := FindTag(cs, "expan");
      var abbr := FindTag(cs, "abbr");
      if expan.Some? {
        OnlyLengthMattersList(expan.value.children, ka, kb);
      } else if abbr.Some? {
        OnlyLengthMattersList(abbr.value.children, ka, kb);
      }
      ChoiceFrame(tag, attrs, cs, a, b);
    } else {
      OtherFrame(tag, attrs, cs, a, b);
    }
  }

  /** The step of `OnlyLengthMattersElement` for a `choice`, given the facts
      about the lists it renders. */
  lemma ChoiceFrame(tag: string, attrs: map<string, string>, cs: seq<XmlNode>, a: Footnotes, b: Footnotes)
    requires |a| == |b| && RoleOf(Lower(tag)) == ChoiceRole
    requires var ka := RenderList(cs, a).notes;
             var kb := RenderList(cs, b).notes;
             && RenderList(cs, a).value == RenderList(cs, b).value
             && |ka| == |kb| && ka[|a|..] == kb[|b|..]
             && (FindTag(cs, "expan").Some? ==>
                   var ns := FindTag(cs, "expan").value.children;
                   RenderList(ns, ka).value == RenderList(ns, kb).value
                   && RenderList(ns, ka).notes[|ka|..] == RenderList(ns, kb).notes[|kb|..])
             && (FindTag(cs, "expan").None? && FindTag(cs, "abbr").Some? ==>
                   var ns := FindTag(cs, "abbr").value.children;
                   RenderList(ns, ka).value == RenderList(ns, kb).value
                   && RenderList(ns, ka).notes[|ka|..] == RenderList(ns, kb).notes[|kb|..])
    ensures RenderElement(tag, attrs, cs, a).value == RenderElement(tag, attrs, cs, b).value
    ensures RenderElement(tag, attrs, cs, a).notes[|a|..] == RenderElement(tag, attrs, cs, b).notes[|b|..]
  {
    var ka := RenderList(cs, a).notes;
    var kb := RenderList(cs, b).notes;
    var expan := FindTag(cs, "expan");
    var abbr := FindTag(cs, "abbr");
    if expan.Some? {
      var ns := expan.value.children;
      SuffixCompose(a, b, ka, kb, RenderList(ns, ka).notes, RenderList(ns, kb).notes);
    } else if abbr.Some? {
      var ns := abbr.value.children;
      SuffixCompose(a, b, ka, kb, RenderList(ns, ka).notes, RenderList(ns, kb).notes);
    }
  }

  /** The step of `OnlyLengthMattersElement` for every case but `choice`. */
  lemma OtherFrame(tag: string, attrs: map<string, string>, cs: seq<XmlNode>, a: Footnotes, b: Footnotes)
    requires |a| == |b| && RoleOf(Lower(tag)) != ChoiceRole
    requires var ka := RenderList(cs, a).notes;
             var kb := RenderList(cs, b).notes;
             && RenderList(cs, a).value == RenderList(cs, b).value
             && |ka| == |kb| && ka[|a|..] == kb[|b|..]
    ensures RenderElement(tag, attrs, cs, a).value == RenderElement(tag, attrs, cs, b).value
    ensures RenderElement(tag, attrs, cs, a).notes[|a|..] == RenderElement(tag, attrs, cs, b).notes[|b|..]
  {
    var ka := RenderList(cs, a).notes;
    var kb := RenderList(cs, b).notes;
    if RoleOf(Lower(tag)) == NoteRole {
      var c := RenderList(cs, []).value;
      assert (ka + [c])[|a|..] == ka[|a|..] + [c];
      assert (kb + [c])[|b|..] == kb[|b|..] + [c];
    }
  }

  lemma {:induction false} OnlyLengthMattersList(ns: seq<XmlNode>, a: Footnotes, b: Footnotes)
    requires |a| == |b|
    ensures RenderList(ns, a).value == RenderList(ns, b).value
    ensures RenderList(ns, a).notes[|a|..] == RenderList(ns, b).notes[|b|..]
    decreases SizeList(ns), 1
  {
    if |ns| > 0 {
      var fa := RenderNode(ns[0], a).notes;
      var fb := RenderNode(ns[0], b).notes;
      OnlyLengthMatters(ns[0], a, b);
      SuffixLength(fa, fb, a, b);
      OnlyLengthMattersList(ns[1..], fa, fb);
      SuffixCompose(a, b, fa, fb, RenderList(ns[1..], fa).notes, RenderList(ns[1..], fb).notes);
    }
  }

  /** Extensions of equal-length lists by equal suffixes have equal length. */
  lemma SuffixLength<T>(x: seq<T>, y: seq<T>, a: seq<T>, b: seq<T>)
    requires a <= x && b <= y && |a| == |b| && x[|a|..] == y[|b|..]
    ensures |x| == |y|
  {
    assert |x[|a|..]| == |y[|b|..]|;
  }

  /** Equal suffixes added in two steps make equal suffixes overall. */
  lemma SuffixCompose<T>(a: seq<T>, b: seq<T>, x: seq<T>, y: seq<T>, x2: seq<T>, y2: seq<T>)
    requires a <= x && b <= y && x <= x2 && y <= y2 && |a| == |b|
    requires x[|a|..] == y[|b|..] && x2[|x|..] == y2[|y|..]
    ensures x2[|a|..] == y2[|b|..]
  {
    SuffixLength(x, y, a, b);
    assert x2[|a|..] == x[|a|..] + x2[|x|..];
    assert y2[|b|..] == y[|b|..] + y2[|y|..];
  }

  // ---- unknown tags

  /** An element whose tag has no case of its own is transparent: the list
      renders, once pass-through wrappers are dissolved, exactly as if the
      element's children stood in its place, and registers the same notes. */
  lemma UnknownTagTransparent(pre: seq<XmlNode>, tag: string, attrs: map<string, string>, cs: seq<XmlNode>,
                              post: seq<XmlNode>, notes: Footnotes)
    requires Lower(tag) !in KnownTags
    ensures var x := RenderList(pre + [Element(tag, attrs, cs)] + post, notes);
            var y := RenderList(pre + cs + post, notes);
            Splice(x.value) == Splice(y.value) && x.notes == y.notes
  {
    var e := Element(tag, attrs, cs);
    var a := RenderList(pre, notes);
    var c := RenderList(cs, a.notes);
    var p := RenderList(post, c.notes);
    var x := RenderList(pre + [e] + post, notes);
    var y := RenderList(pre + cs + post, notes);
    assert x == Rendered(a.value + [Passthrough(c.value)] + p.value, p.notes) by {
      UnknownElementAlone(tag, attrs, cs, a.notes);
      ThreeParts(pre, [e], post, notes);
    }
    assert y == Rendered(a.value + c.value + p.value, p.notes) by {
      ThreeParts(pre, cs, post, notes);
    }
    // the two agree once wrappers are dissolved
    SpliceConcat(a.value + [Passthrough(c.value)], p.value);
    SpliceConcat(a.value, [Passthrough(c.value)]);
    SpliceConcat(a.value + c.value, p.value);
    SpliceConcat(a.value, c.value);
    assert Splice([Passthrough(c.value)]) == Splice(c.value) by {
      assert [Passthrough(c.value)][1..] == [];
      assert Splice(c.value) + Splice([]) == Splice(c.value);
    }
  }

  /** An element of unknown tag, alone in a list, renders as a pass-through
      wrapper around its rendered children. */
  lemma UnknownElementAlone(tag: string, attrs: map<string, string>, cs: seq<XmlNode>, notes: Footnotes)
    requires RoleOf(Lower(tag)) == Unknown
    ensures var c := RenderList(cs, notes);
            RenderList([Element(tag, attrs, cs)], notes) == Rendered([Passthrough(c.value)], c.notes)
  {
    var e := Element(tag, attrs, cs);
    var c := RenderList(cs, notes);
    assert RenderNode(e, notes) == Rendered(Passthrough(c.value), c.notes);
    SingleNode(e, notes);
  }

  /** Rendering three consecutive parts of a list. */
  lemma ThreeParts(a: seq<XmlNode>, b: seq<XmlNode>, c: seq<XmlNode>, notes: Footnotes)
    ensures var ra := RenderList(a, notes);
            var rb := RenderList(b, ra.notes);
            var rc := RenderList(c, rb.notes);
            RenderList(a + b + c, notes) == Rendered(ra.value + rb.value + rc.value, rc.notes)
  {
    RenderListConcat(a, b, notes);
    RenderListConcat(a + b, c, notes);
  }

  // ---- numbering order

  /** The content a `note` element contributes: its children rendered
      against a fresh list. */
  function NoteBody(m: XmlNode): seq<DocNode>
  {
    if m.Element? then RenderList(m.children, []).value else []
  }

  function NoteBodies(ms: seq<XmlNode>): (r: Footnotes)
    ensures |r| == |ms|
  {
    if |ms| == 0 then [] else [NoteBody(ms[0])] + NoteBodies(ms[1..])
  }

  lemma {:induction false} NoteBodiesConcat(a: seq<XmlNode>, b: seq<XmlNode>)
    ensures NoteBodies(a + b) == NoteBodies(a) + NoteBodies(b)
    decreases |a|
  {
    if |a| == 0 {
      assert a + b == b;
    } else {
      assert (a + b)[0] == a[0];
      assert (a + b)[1..] == a[1..] + b;
      NoteBodiesConcat(a[1..], b);
    }
  }

  predicate IsNote(n: XmlNode)
  {
    n.Element? && Lower(n.tag) == "note"
  }

  /** The `note` elements of a tree in post-order: every note after the notes
      below it, siblings left to right. */
  function PostNotes(n: XmlNode): seq<XmlNode>
    decreases Size(n), 0
  {
    match n
    case Element(_, _, cs) => PostNotesList(cs) + (if IsNote(n) then [n] else [])
    case _ => []
  }

  function PostNotesList(ns: seq<XmlNode>): seq<XmlNode>
    decreases SizeList(ns), 1
  {
    if |ns| == 0 then [] else PostNotes(ns[0]) + PostNotesList(ns[1..])
  }

  /** The `note` elements of a tree in document order: every note before the
      notes below it, siblings left to right. */
  function PreNotes(n: XmlNode): seq<XmlNode>
    decreases Size(n), 0
  {
    match n
    case Element(_, _, cs) => (if IsNote(n) then [n] else []) + PreNotesList(cs)
    case _ => []
  }

  function PreNotesList(ns: seq<XmlNode>): seq<XmlNode>
    decreases SizeList(ns), 1
  {
    if |ns| == 0 then [] else PreNotes(ns[0]) + PreNotesList(ns[1..])
  }

  /** No `choice` element anywhere in the tree. */
  predicate ChoiceFree(n: XmlNode)
    decreases Size(n), 0
  {
    match n
    case Element(tag, _, cs) => Lower(tag) != "choice" && ChoiceFreeList(cs)
    case _ => true
  }

  predicate ChoiceFreeList(ns: seq<XmlNode>)
    decreases SizeList(ns), 1
  {
    |ns| == 0 || (ChoiceFree(ns[0]) && ChoiceFreeList(ns[1..]))
  }

  /** Of the cases other than `choice`, only `note` pushes anything itself:
      every other element leaves the list as its children left it. */
  lemma ElementNotes(tag: string, attrs: map<string, string>, cs: seq<XmlNode>, notes: Footnotes)
    requires Lower(tag) != "choice"
    ensures RenderElement(tag, attrs, cs, notes).notes ==
              RenderList(cs, notes).notes + (if Lower(tag) == "note" then [RenderList(cs, []).value] else [])
  {
    var role := RoleOf(Lower(tag));
    if Lower(tag) == "note" {
      assert role == NoteRole;
    } else {
      assert role != NoteRole && role != ChoiceRole;
    }
  }

  /** Without `choice` elements, a pass appends the contents of all notes,
      nested ones included, in post-order: a note nested in another is
      numbered before the note that contains it. */
  lemma {:induction false} FootnotesPostOrder(n: XmlNode, notes: Footnotes)
    requires ChoiceFree(n)
    ensures RenderNode(n, notes).notes == notes + NoteBodies(PostNotes(n))
    decreases Size(n), 0
  {
    if n.Element? {
      ElementNotes(n.tag, n.attrs, n.children, notes);
      FootnotesPostOrderList(n.children, notes);
      NoteBodiesConcat(PostNotesList(n.children), if IsNote(n) then [n] else []);
      if IsNote(n) {
        assert NoteBodies([n]) == [RenderList(n.children, []).value];
      } else {
        assert NoteBodies([]) == [];
      }
    } else {
      assert NoteBodies([]) == [];
    }
  }

  lemma {:induction false} FootnotesPostOrderList(ns: seq<XmlNode>, notes: Footnotes)
    requires ChoiceFreeList(ns)
    ensures RenderList(ns, notes).notes == notes + NoteBodies(PostNotesList(ns))
    decreases SizeList(ns), 1
  {
    if |ns| == 0 {
      assert NoteBodies([]) == [];
    } else {
      var mid := RenderNode(ns[0], notes).notes;
      FootnotesPostOrder(ns[0], notes);
      FootnotesPostOrderList(ns[1..], mid);
      PostOrderStep(ns, notes);
    }
  }

  /** The step of `FootnotesPostOrderList` from the head and the tail of a
      list to the whole list. */
  lemma PostOrderStep(ns: seq<XmlNode>, notes: Footnotes)
    requires |ns| > 0
    requires RenderNode(ns[0], notes).notes == notes + NoteBodies(PostNotes(ns[0]))
    requires var mid := RenderNode(ns[0], notes).notes;
             RenderList(ns[1..], mid).notes == mid + NoteBodies(PostNotesList(ns[1..]))
    ensures RenderList(ns, notes).notes == notes + NoteBodies(PostNotesList(ns))
  {
    var mid := RenderNode(ns[0], notes).notes;
    var a := NoteBodies(PostNotes(ns[0]));
    var b := NoteBodies(PostNotesList(ns[1..]));
    assert RenderList(ns, notes).notes == RenderList(ns[1..], mid).notes by {
      RenderListCons(ns, notes);
    }
    assert NoteBodies(PostNotesList(ns)) == a + b by {
      assert PostNotesList(ns) == PostNotes(ns[0]) + PostNotesList(ns[1..]);
      NoteBodiesConcat(PostNotes(ns[0]), PostNotesList(ns[1..]));
    }
    Associate(notes, a, b);
  }

  lemma Associate<T>(s: seq<T>, a: seq<T>, b: seq<T>)
    ensures (s + a) + b == s + (a + b)
  {
  }

  /** No `note` element anywhere in the tree. */
  predicate NoteFree(n: XmlNode)
    decreases Size(n), 0
  {
    match n
    case Element(_, _, cs) => !IsNote(n) && NoteFreeList(cs)
    case _ => true
  }

  predicate NoteFreeList(ns: seq<XmlNode>)
    decreases SizeList(ns), 1
  {
    |ns| == 0 || (NoteFree(ns[0]) && NoteFreeList(ns[1..]))
  }

  /** No `note` element has another `note` below it. */
  predicate NoNestedNotes(n: XmlNode)
    decreases Size(n), 0
  {
    match n
    case Element(_, _, cs) => if IsNote(n) then NoteFreeList(cs) else NoNestedNotesList(cs)
    case _ => true
  }

  predicate NoNestedNotesList(ns: seq<XmlNode>)
    decreases SizeList(ns), 1
  {
    |ns| == 0 || (NoNestedNotes(ns[0]) && NoNestedNotesList(ns[1..]))
  }

  lemma {:induction false} NoteFreeHasNoNotes(ns: seq<XmlNode>)
    requires NoteFreeList(ns)
    ensures PreNotesList(ns) == [] && PostNotesList(ns) == []
    decreases SizeList(ns)
  {
    if |ns| > 0 {
      if ns[0].Element? {
        assert SizeList(ns[0].children) < SizeList(ns);
        NoteFreeHasNoNotes(ns[0].children);
      }
      NoteFreeHasNoNotes(ns[1..]);
    }
  }

  /** A subtree with neither `note` nor `choice` elements leaves the footnote
      list as it found it. */
  lemma NoNotesNoPushes(ns: seq<XmlNode>, notes: Footnotes)
    requires NoteFreeList(ns) && ChoiceFreeList(ns)
    ensures RenderList(ns, notes).notes == notes
  {
    FootnotesPostOrderList(ns, notes);
    NoteFreeHasNoNotes(ns);
    assert NoteBodies([]) == [];
  }

  /** When no note contains another, post-order and document order list the
      notes alike. */
  lemma {:induction false} UnnestedNotesInDocumentOrder(ns: seq<XmlNode>)
    requires NoNestedNotesList(ns)
    ensures PostNotesList(ns) == PreNotesList(ns)
    decreases SizeList(ns)
  {
    if |ns| > 0 {
      var n := ns[0];
      assert PostNotes(n) == PreNotes(n) by {
        assert NoNestedNotes(n);
        if n.Element? {
          if IsNote(n) {
            NoteFreeHasNoNotes(n.children);
            assert PostNotes(n) == [] + [n];
            assert PreNotes(n) == [n] + [];
          } else {
            assert SizeList(n.children) < SizeList(ns);
            UnnestedNotesInDocumentOrder(n.children);
            assert PostNotes(n) == PostNotesList(n.children) + [];
            assert PreNotes(n) == [] + PreNotesList(n.children);
          }
        }
      }
      UnnestedNotesInDocumentOrder(ns[1..]);
      assert PostNotesList(ns) == PostNotes(n) + PostNotesList(ns[1..]);
      assert PreNotesList(ns) == PreNotes(n) + PreNotesList(ns[1..]);
    }
  }

  /** Without `choice` elements and nested notes, footnote `i` (counted from
      1 after the entries already present) is the content of the `i`-th note
      in document order. */
  lemma FootnotesInDocumentOrder(ns: seq<XmlNode>, notes: Footnotes)
    requires ChoiceFreeList(ns) && NoNestedNotesList(ns)
    ensures var r := RenderList(ns, notes).notes;
            var ms := PreNotesList(ns);
            && |r| == |notes| + |ms|
            && r[..|notes|] == notes
            && forall i :: 0 <= i < |ms| ==> IsNote(ms[i]) && r[|notes| + i] == RenderList(ms[i].children, []).value
  {
    FootnotesPostOrderList(ns, notes);
    UnnestedNotesInDocumentOrder(ns);
    var ms := PreNotesList(ns);
    forall i | 0 <= i < |ms|
      ensures IsNote(ms[i]) && NoteBodies(ms)[i] == NoteBody(ms[i])
    {
      PreNotesAreNotes(ns);
      NoteBodiesAt(ms, i);
    }
  }

  lemma {:induction false} NoteBodiesAt(ms: seq<XmlNode>, i: nat)
    requires i < |ms|
    ensures NoteBodies(ms)[i] == NoteBody(ms[i])
    decreases i
  {
    assert NoteBodies(ms) == [NoteBody(ms[0])] + NoteBodies(ms[1..]);
    if i > 0 {
      NoteBodiesAt(ms[1..], i - 1);
      assert ms[1..][i - 1] == ms[i];
    }
  }

  predicate AllNotes(ms: seq<XmlNode>)
  {
    forall i :: 0 <= i < |ms| ==> IsNote(ms[i])
  }

  lemma AllNotesConcat(a: seq<XmlNode>, b: seq<XmlNode>)
    requires AllNotes(a) && AllNotes(b)
    ensures AllNotes(a + b)
  {
    forall i | 0 <= i < |a + b| ensures IsNote((a + b)[i]) {
      if i >= |a| {
        assert (a + b)[i] == b[i - |a|];
      }
    }
  }

  lemma {:induction false} PreNotesAreNotes(ns: seq<XmlNode>)
    ensures AllNotes(PreNotesList(ns))
    decreases SizeList(ns)
  {
    if |ns| > 0 {
      var n := ns[0];
      assert AllNotes(PreNotes(n)) by {
        if n.Element? {
          assert SizeList(n.children) < SizeList(ns);
          PreNotesAreNotes(n.children);
          var own := if IsNote(n) then [n] else [];
          AllNotesConcat(own, PreNotesList(n.children));
        }
      }
      PreNotesAreNotes(ns[1..]);
      AllNotesConcat(PreNotes(n), PreNotesList(ns[1..]));
    }
  }
}

=== FILE: select.dfy ===
/** `Element.querySelector` for the selector shapes the renderer uses: the
    first element below the context element, in document order, that the
    selector matches. Tag and attribute names compare case-sensitively, as
    they do in a document the parser produced from `application/xml`. */
module Select {
  import opened Wrappers
  import opened Xml

  /** A chain of tag names joined by the child combinator (`a > b > c`), whose
      first step may sit at any depth, with an optional `[name='value']` test
      on the last step. */
  datatype Selector = Selector(path: seq<string>, attr: Option<(string, string)>)

  /** A selector of a single tag name, such as `expan`. */
  function TagSelector(tag: string): Selector
  {
    Selector([tag], None)
  }

  /** A node together with the tag names of its ancestors, outermost first. */
  datatype Located = Located(node: XmlNode, ancestors: seq<string>)

  predicate Matches(sel: Selector, loc: Located)
  {
    && |sel.path| > 0
    && loc.node.Element?
    && loc.node.tag == sel.path[|sel.path| - 1]
    && |sel.path| - 1 <= |loc.ancestors|
    && loc.ancestors[|loc.ancestors| - (|sel.path| - 1)..] == sel.path[..|sel.path| - 1]
    && (sel.attr.Some? ==>
          sel.attr.value.0 in loc.node.attrs && loc.node.attrs[sel.attr.value.0] == sel.attr.value.1)
  }

  /** Every node below the list `ns` in document order (each node before its
      descendants, siblings left to right), each with its ancestors' tags;
      `anc` holds the tags above `ns`. */
  function Preorder(ns: seq<XmlNode>, anc: seq<string>): seq<Located>
    decreases SizeList(ns), 1
  {
    if |ns| == 0 then [] else PreorderNode(ns[0], anc) + Preorder(ns[1..], anc)
  }

  /** `n` followed by everything below it in document order. */
  function PreorderNode(n: XmlNode, anc: seq<string>): seq<Located>
    decreases Size(n), 0
  {
    [Located(n, anc)] + (if n.Element? then Preorder(n.children, anc + [n.tag]) else [])
  }

  /** The first entry of a flat list that the selector matches. */
  function FirstIn(s: seq<Located>, sel: Selector): Option<Located>
  {
    if |s| == 0 then None
    else if Matches(sel, s[0]) then Some(s[0])
    else FirstIn(s[1..], sel)
  }

  /** `FirstIn` finds a match exactly when the list holds one, and what it
      finds is a matching entry with no matching entry before it. */
  lemma {:induction false} FirstInIsFirst(s: seq<Located>, sel: Selector)
    ensures FirstIn(s, sel).Some? <==> exists k :: 0 <= k < |s| && Matches(sel, s[k])
    ensures FirstIn(s, sel).Some? ==>
      exists k :: 0 <= k < |s| && s[k] == FirstIn(s, sel).value && Matches(sel, s[k])
                  && forall j :: 0 <= j < k ==> !Matches(sel, s[j])
    decreases |s|
  {
    if |s| > 0 && !Matches(sel, s[0]) {
      FirstInIsFirst(s[1..], sel);
      assert forall k :: 1 <= k < |s| ==> s[k] == s[1..][k - 1];
      if FirstIn(s, sel).Some? {
        var k :| 0 <= k < |s[1..]| && s[1..][k] == FirstIn(s, sel).value && Matches(sel, s[1..][k])
                 && forall j :: 0 <= j < k ==> !Matches(sel, s[1..][j]);
        assert s[k + 1] == FirstIn(s, sel).value;
        assert forall j :: 0 <= j < k + 1 ==> !Matches(sel, s[j]);
      } else {
        assert forall k :: 0 <= k < |s| ==> !Matches(sel, s[k]) by {
          forall k | 0 <= k < |s| ensures !Matches(sel, s[k]) {
            if k > 0 { assert s[k] == s[1..][k - 1]; }
          }
        }
      }
    }
  }

  /** The search `querySelector` performs, over the children `ns` of the
      context element, whose own tag and ancestors' tags are `anc`. The result
      matches the selector and is no larger than the tree it was found in. */
  function FirstMatch(ns: seq<XmlNode>, anc: seq<string>, sel: Selector): (r: Option<Located>)
    ensures r.Some? ==> Matches(sel, r.value)
    ensures r.Some? ==> Size(r.value.node) <= SizeList(ns)
    decreases SizeList(ns), 1
  {
    if |ns| == 0 then None
    else
      var first := FirstMatchNode(ns[0], anc, sel);
      if first.Some? then first else FirstMatch(ns[1..], anc, sel)
  }

  /** The search within one node: the node itself, else the first match
      below it. */
  function FirstMatchNode(n: XmlNode, anc: seq<string>, sel: Selector): (r: Option<Located>)
    ensures r.Some? ==> Matches(sel, r.value)
    ensures r.Some? ==> Size(r.value.node) <= Size(n)
    decreases Size(n), 0
  {
    if Matches(sel, Located(n, anc)) then Some(Located(n, anc))
    else if n.Element? then FirstMatch(n.children, anc + [n.tag], sel)
    else None
  }

  lemma {:induction false} FirstInConcat(a: seq<Located>, b: seq<Located>, sel: Selector)
    ensures FirstIn(a + b, sel) == if FirstIn(a, sel).Some? then FirstIn(a, sel) else FirstIn(b, sel)
    decreases |a|
  {
    if |a| > 0 {
      assert (a + b)[1..] == a[1..] + b;
      FirstInConcat(a[1..], b, sel);
    } else {
      assert a + b == b;
    }
  }

  /** The recursive search returns exactly the first match in document order:
      the first entry of the pre-order listing that the selector matches. */
  lemma {:induction false} FirstMatchIsFirstInPreorder(ns: seq<XmlNode>, anc: seq<string>, sel: Selector)
    ensures FirstMatch(ns, anc, sel) == FirstIn(Preorder(ns, anc), sel)
    decreases SizeList(ns), 1
  {
    if |ns| > 0 {
      FirstMatchNodeIsFirst(ns[0], anc, sel);
      FirstMatchIsFirstInPreorder(ns[1..], anc, sel);
      FirstInConcat(PreorderNode(ns[0], anc), Preorder(ns[1..], anc), sel);
    }
  }

  lemma {:induction false} FirstMatchNodeIsFirst(n: XmlNode, anc: seq<string>, sel: Selector)
    ensures FirstMatchNode(n, anc, sel) == FirstIn(PreorderNode(n, anc), sel)
    decreases Size(n), 0
  {
    var below := if n.Element? then Preorder(n.children, anc + [n.tag]) else [];
    assert PreorderNode(n, anc)[0] == Located(n, anc);
    assert PreorderNode(n, anc)[1..] == below;
    if n.Element? {
      FirstMatchIsFirstInPreorder(n.children, anc + [n.tag], sel);
    }
  }

  /** The search finds something exactly when some node of the searched tree
      matches, and what it finds is one of the tree's nodes. */
  lemma FirstMatchFound(ns: seq<XmlNode>, anc: seq<string>, sel: Selector)
    ensures var all := Preorder(ns, anc);
            && (FirstMatch(ns, anc, sel).Some? <==> exists k :: 0 <= k < |all| && Matches(sel, all[k]))
            && (FirstMatch(ns, anc, sel).Some? ==> FirstMatch(ns, anc, sel).value in all)
  {
    FirstMatchIsFirstInPreorder(ns, anc, sel);
    FirstInIsFirst(Preorder(ns, anc), sel);
  }

  /** `querySelector` with a single tag name, such as `node.querySelector('expan')`:
      the first element with exactly that tag strictly below the context
      element. A one-step selector does not look at ancestors, so none are
      passed. */
  function FindTag(ns: seq<XmlNode>, tag: string): (r: Option<XmlNode>)
    ensures r.Some? ==> r.value.Element? && r.value.tag == tag
    ensures r.Some? ==> Size(r.value) <= SizeList(ns)
  {
    match FirstMatch(ns, [], TagSelector(tag))
    case Some(loc) => Some(loc.node)
    case None => None
  }

  /** A list whose first node carries the tag yields that node. */
  lemma FindTagHead(ns: seq<XmlNode>, tag: string)
    requires |ns| > 0 && ns[0].Element? && ns[0].tag == tag
    ensures FindTag(ns, tag) == Some(ns[0])
  {
    var sel := TagSelector(tag);
    assert [] == sel.path[..0];
    assert Matches(sel, Located(ns[0], []));
    assert FirstMatchNode(ns[0], [], sel) == Some(Located(ns[0], []));
  }

  /** A one-step selector matches exactly the elements with that tag, wherever
      they sit. */
  lemma TagSelectorMatches(tag: string, loc: Located)
    ensures Matches(TagSelector(tag), loc) <==> loc.node.Element? && loc.node.tag == tag
  {
    assert loc.ancestors[|loc.ancestors|..] == [] == TagSelector(tag).path[..0];
  }

  /** The single-tag search finds nothing exactly when no node below the list
      carries the tag, and otherwise the first such node in document order. */
  lemma FindTagIsFirstDescendant(ns: seq<XmlNode>, tag: string)
    ensures var all := Preorder(ns, []);
            && (FindTag(ns, tag).None? <==>
                  forall k :: 0 <= k < |all| ==> !(all[k].node.Element? && all[k].node.tag == tag))
            && (FindTag(ns, tag).Some? ==>
                  exists k :: 0 <= k < |all| && all[k].node == FindTag(ns, tag).value
                              && forall j :: 0 <= j < k ==> !(all[j].node.Element? && all[j].node.tag == tag))
  {
    var all := Preorder(ns, []);
    var sel := TagSelector(tag);
    FirstMatchIsFirstInPreorder(ns, [], sel);
    FirstInIsFirst(all, sel);
    forall k | 0 <= k < |all|
      ensures Matches(sel, all[k]) <==> all[k].node.Element? && all[k].node.tag == tag
    {
      TagSelectorMatches(tag, all[k]);
    }
  }
}

=== FILE: tags.dfy ===
/** The per-tag policy of `renderNode`: which case of its `switch` a
    lower-cased tag name selects, and how the attribute-driven cases (`rs`,
    `hi`, `foreign`, `pb`) read their attributes. */
module Tags {
  import opened Wrappers
  import opened Xml
  import opened Doc

  /** The cases of the tag `switch`. */
  datatype Role =
    | ParagraphRole
    | BlockRole(kind: BlockKind)
    | RsRole
    | EntityRole
    | QuoteRole
    | HiRole
    | ForeignRole
    | NoteRole
    | ChoiceRole
    | StyleRole(style: Style)
    | PbRole
    | LbRole
    | Unknown

  /** The labels of the tag `switch`, each with the case it selects. */
  const RoleTable: map<string, Role> := map[
    "p" := ParagraphRole,
    "opener" := BlockRole(Opener), "closer" := BlockRole(Closer), "dateline" := BlockRole(Dateline),
    "salute" := BlockRole(Salute), "signed" := BlockRole(Signed),
    "rs" := RsRole,
    "persname" := EntityRole, "placename" := EntityRole, "work" := EntityRole,
    "organization" := EntityRole, "date" := EntityRole,
    "q" := QuoteRole, "hi" := HiRole, "foreign" := ForeignRole,
    "note" := NoteRole, "choice" := ChoiceRole,
    "add" := StyleRole(Addition), "del" := StyleRole(Deletion), "sic" := StyleRole(Sic),
    "supplied" := StyleRole(Supplied), "formula" := StyleRole(Formula), "unclear" := StyleRole(Unclear),
    "pb" := PbRole, "lb" := LbRole
  ]

  /** Every tag name (lower case) that has a case of its own. */
  const KnownTags: set<string> := {
    "p", "opener", "closer", "dateline", "salute", "signed",
    "rs", "persname", "placename", "work", "organization", "date",
    "q", "hi", "foreign", "note", "choice",
    "add", "del", "sic", "supplied", "formula", "unclear",
    "pb", "lb"
  }

  /** The case a lower-cased tag name selects; a tag without a case of its
      own falls to the default case. */
  function RoleOf(t: string): (r: Role)
    ensures r.Unknown? <==> t !in KnownTags
    ensures r.BlockRole? <==> t in {"opener", "closer", "dateline", "salute", "signed"}
    ensures r == EntityRole <==> t in {"persname", "placename", "work", "organization", "date"}
    ensures r.StyleRole? <==> t in {"add", "del", "sic", "supplied", "formula", "unclear"}
    ensures r == NoteRole <==> t == "note"
    ensures r == ChoiceRole <==> t == "choice"
  {
    if t == "p" then ParagraphRole
    else if t == "opener" then BlockRole(Opener)
    else if t == "closer" then BlockRole(Closer)
    else if t == "dateline" then BlockRole(Dateline)
    else if t == "salute" then BlockRole(Salute)
    else if t == "signed" then BlockRole(Signed)
    else if t == "rs" then RsRole
    else if t in {"persname", "placename", "work", "organization", "date"} then EntityRole
    else if t == "q" then QuoteRole
    else if t == "hi" then HiRole
    else if t == "foreign" then ForeignRole
    else if t == "note" then NoteRole
    else if t == "choice" then ChoiceRole
    else if t == "add" then StyleRole(Addition)
    else if t == "del" then StyleRole(Deletion)
    else if t == "sic" then StyleRole(Sic)
    else if t == "supplied" then StyleRole(Supplied)
    else if t == "formula" then StyleRole(Formula)
    else if t == "unclear" then StyleRole(Unclear)
    else if t == "pb" then PbRole
    else if t == "lb" then LbRole
    else Unknown
  }

  /** The labels of the table are exactly the known tags. */
  lemma RoleTableKeys()
    ensures RoleTable.Keys == KnownTags
  {
  }

  /** The `switch` selects, for every label, the case the table lists, and
      the default case for every other tag. */
  lemma RoleOfTable(t: string)
    ensures t in RoleTable ==> RoleOf(t) == RoleTable[t]
    ensures t !in RoleTable ==> RoleOf(t) == Unknown
  {
    RoleTableKeys();
    if t in KnownTags {
      RoleOfLabel(t);
    }
  }

  /** The table agreement for one label, proved a group of labels at a time
      with one case per label. */
  lemma RoleOfLabel(t: string)
    requires t in KnownTags
    ensures RoleOf(t) == RoleTable[t]
  {
    if t in {"p", "opener", "closer", "dateline", "salute", "signed"} {
      RoleOfBlocks(t);
    } else if t in {"rs", "persname", "placename", "work", "organization", "date"} {
      RoleOfEntities(t);
    } else if t in {"q", "hi", "foreign", "note", "choice", "pb", "lb"} {
      RoleOfInline(t);
    } else {
      RoleOfEditorial(t);
    }
  }

  lemma RoleOfBlocks(t: string)
    requires t in {"p", "opener", "closer", "dateline", "salute", "signed"}
    ensures RoleOf(t) == RoleTable[t]
  {
    if t == "p" {}
    else if t == "opener" {}
    else if t == "closer" {}
    else if t == "dateline" {}
    else if t == "salute" {}
    else if t == "signed" {}
  }

  lemma RoleOfEntities(t: string)
    requires t in {"rs", "persname", "placename", "work", "organization", "date"}
    ensures RoleOf(t) == RoleTable[t]
  {
    if t == "rs" {}
    else if t == "persname" {}
    else if t == "placename" {}
    else if t == "work" {}
    else if t == "organization" {}
    else if t == "date" {}
  }

  lemma RoleOfInline(t: string)
    requires t in {"q", "hi", "foreign", "note", "choice", "pb", "lb"}
    ensures RoleOf(t) == RoleTable[t]
  {
    if t == "q" {}
    else if t == "hi" {}
    else if t == "foreign" {}
    else if t == "note" {}
    else if t == "choice" {}
    else if t == "pb" {}
    else if t == "lb" {}
  }

  lemma RoleOfEditorial(t: string)
    requires t in {"add", "del", "sic", "supplied", "formula", "unclear"}
    ensures RoleOf(t) == RoleTable[t]
  {
    if t == "add" {}
    else if t == "del" {}
    else if t == "sic" {}
    else if t == "supplied" {}
    else if t == "formula" {}
    else if t == "unclear" {}
  }

  // ---- hi

  /** `attrs.rend || attrs.rendition`. */
  function Rendition(attrs: map<string, string>): (r: Option<string>)
    ensures "rend" in attrs && attrs["rend"] != "" ==> r == Some(attrs["rend"])
    ensures !("rend" in attrs && attrs["rend"] != "") ==>
              (r.Some? <==> "rendition" in attrs) && (r.Some? ==> r.value == attrs["rendition"])
  {
    OrElse(Attr(attrs, "rend"), Attr(attrs, "rendition"))
  }

  /** The rendition values `hi` recognises, with the style each selects. */
  const HiTable: map<string, Style> := map[
    "u" := Underline, "underline" := Underline, "uu" := Underline,
    "i" := Italic, "italic" := Italic,
    "b" := Bold, "bold" := Bold,
    "aq" := Monospace
  ]

  /** The style of a `hi` element: the table entry of its rendition, compared
      case-sensitively, and no style for any other or a missing rendition. */
  function HiStyle(attrs: map<string, string>): (r: Style)
    ensures var v := Rendition(attrs);
      r == if v.Some? && v.value in HiTable then HiTable[v.value] else Unstyled
    ensures r in {Underline, Italic, Bold, Monospace, Unstyled}
  {
    var v := Rendition(attrs);
    if v == Some("u") || v == Some("underline") || v == Some("uu") then Underline
    else if v == Some("i") || v == Some("italic") then Italic
    else if v == Some("b") || v == Some("bold") then Bold
    else if v == Some("aq") then Monospace
    else Unstyled
  }

  // ---- rs

  /** `attrs.type || attrs.t || attrs.subtype || ''`: the first of the three
      attributes that is present and non-empty, or the empty string. */
  function RsSubtype(attrs: map<string, string>): (r: string)
    ensures r == "" <==> !Truthy(Attr(attrs, "type")) && !Truthy(Attr(attrs, "t")) && !Truthy(Attr(attrs, "subtype"))
    ensures Truthy(Attr(attrs, "type")) ==> r == attrs["type"]
    ensures !Truthy(Attr(attrs, "type")) && Truthy(Attr(attrs, "t")) ==> r == attrs["t"]
    ensures !Truthy(Attr(attrs, "type")) && !Truthy(Attr(attrs, "t")) && Truthy(Attr(attrs, "subtype")) ==>
              r == attrs["subtype"]
  {
    OrElse(OrElse(OrElse(Attr(attrs, "type"), Attr(attrs, "t")), Attr(attrs, "subtype")), Some("")).value
  }

  /** The keys of the `rs` colour table, lower case, with the class each
      selects (its `default` key selects the default class). */
  const RsTable: map<string, EntityKind> := map[
    "person" := Person, "place" := Place, "work" := Work,
    "bible" := Bible, "letter" := Letter, "default" := DefaultEntity
  ]

  /** `rsTypeToClass`: the colour class of an `rs` type, looked up lower-cased
      in the table; an empty or unlisted type gets the default class. */
  function RsKind(subtype: string): (r: EntityKind)
    ensures Lower(subtype) in RsTable ==> r == RsTable[Lower(subtype)]
    ensures Lower(subtype) !in RsTable ==> r == DefaultEntity
    ensures r != DefaultEntity ==> subtype != ""
  {
    if subtype == "" then DefaultEntity
    else
      var t := Lower(subtype);
      if t == "person" then Person
      else if t == "place" then Place
      else if t == "work" then Work
      else if t == "bible" then Bible
      else if t == "letter" then Letter
      else DefaultEntity
  }

  /** The tooltip of an `rs` span: its type, unless that is empty. */
  function RsTooltip(subtype: string): (r: Option<string>)
    ensures r.Some? <==> subtype != ""
    ensures r.Some? ==> r.value == subtype
  {
    if subtype == "" then None else Some(subtype)
  }

  // ---- foreign

  /** `attrs['xml:lang'] || 'unknown'`. */
  function ForeignLang(attrs: map<string, string>): (r: string)
    ensures "xml:lang" in attrs && attrs["xml:lang"] != "" ==> r == attrs["xml:lang"]
    ensures !("xml:lang" in attrs && attrs["xml:lang"] != "") ==> r == "unknown"
    ensures r != ""
  {
    OrElse(Attr(attrs, "xml:lang"), Some("unknown")).value
  }

  // ---- pb

  /** A page break: nothing for page `"1"`, otherwise a break carrying `n`
      (absent when the attribute is). Attribute values are always strings,
      so the source's comparison with the number 1 never holds. */
  function PageBreakOf(attrs: map<string, string>): (r: DocNode)
    ensures r == Nothing <==> "n" in attrs && attrs["n"] == "1"
    ensures r != Nothing ==> r.PageBreak? && r.page == Attr(attrs, "n")
  {
    if Attr(attrs, "n") == Some("1") then Nothing else PageBreak(Attr(attrs, "n"))
  }
}

=== FILE: wrappers.dfy ===
/** Optional values and results with an error, used where the renderer returns
    `null` or an error message instead of a value. */
module Wrappers {

  datatype Option<+T> = None | Some(value: T)

  datatype Result<+R, +E> = Success(value: R) | Failure(error: E)
}

=== FILE: xml.dfy ===
/** The parsed input: a DOM element tree as the browser's XML parser hands it
    over, reduced to what the renderer reads of it. */
module Xml {
  import opened Wrappers

  /** A DOM node. `TextNode` is node type 3, `Element` node type 1 (its tag is
      the element's `tagName`, its attributes keyed by qualified name such as
      `xml:lang`); every other node type (comments, CDATA sections,
      processing instructions) is `OtherNode`. */
  datatype XmlNode =
    | TextNode(content: string)
    | Element(tag: string, attrs: map<string, string>, children: seq<XmlNode>)
    | OtherNode

  /** Number of nodes in a tree; the termination measure of every walk. */
  function Size(n: XmlNode): (r: nat)
    ensures r >= 1
  {
    match n
    case Element(_, _, cs) => 1 + SizeList(cs)
    case _ => 1
  }

  function SizeList(ns: seq<XmlNode>): nat
  {
    if |ns| == 0 then 0 else Size(ns[0]) + SizeList(ns[1..])
  }

  lemma {:induction false} SizeListElement(ns: seq<XmlNode>, i: nat)
    requires i < |ns|
    ensures Size(ns[i]) <= SizeList(ns)
    decreases i
  {
    if i > 0 {
      SizeListElement(ns[1..], i - 1);
    }
  }

  // ---- ASCII lower-casing, as `String.prototype.toLowerCase` does on ASCII

  function LowerChar(c: char): (r: char)
    ensures 'A' <= c <= 'Z' ==> r as int == c as int + 32
    ensures !('A' <= c <= 'Z') ==> r == c
  {
    if 'A' <= c <= 'Z' then (c as int + 32) as char else c
  }

  predicate IsLower(s: string)
  {
    forall i :: 0 <= i < |s| ==> !('A' <= s[i] <= 'Z')
  }

  /** `toLowerCase` on ASCII: every character lower-cased on its own, in
      place. */
  function Lower(s: string): (r: string)
    ensures |r| == |s|
    ensures forall i :: 0 <= i < |s| ==> r[i] == LowerChar(s[i])
    ensures IsLower(r)
    ensures forall i :: 0 <= i < |s| && !('A' <= s[i] <= 'Z') ==> r[i] == s[i]
  {
    if |s| == 0 then "" else [LowerChar(s[0])] + Lower(s[1..])
  }

  /** Lower-casing changes nothing in a string that has no upper-case letter,
      so lower-casing twice is lower-casing once. */
  lemma LowerOfLower(s: string)
    requires IsLower(s)
    ensures Lower(s) == s
  {
  }

  lemma LowerIdempotent(s: string)
    ensures Lower(Lower(s)) == Lower(s)
  {
    LowerOfLower(Lower(s));
  }

  // ---- attribute lookup with JavaScript truthiness

  /** `attrs.k`: the attribute value, or `undefined` when it is absent. */
  function Attr(attrs: map<string, string>, k: string): (r: Option<string>)
    ensures r.Some? <==> k in attrs
    ensures r.Some? ==> r.value == attrs[k]
  {
    if k in attrs then Some(attrs[k]) else None
  }

  /** A string-or-undefined value is truthy when it is a non-empty string. */
  predicate Truthy(v: Option<string>)
  {
    v.Some? && v.value != ""
  }

  /** JavaScript `a || b` on string-or-undefined values: `a` when it is
      truthy, otherwise `b` (even when `b` is itself empty or undefined). */
  function OrElse(a: Option<string>, b: Option<string>): (r: Option<string>)
    ensures Truthy(a) ==> r == a
    ensures !Truthy(a) ==> r == b
    ensures r == a || r == b
    ensures Truthy(r) <==> Truthy(a) || Truthy(b)
  {
    if Truthy(a) then a else b
  }
}
